=== FILE: README.md ===
# arXiv PDF Saver — a Dafny model of the background worker's string logic

The extension saves an arXiv paper's PDF, and the paper's reference list as CSV or JSON, under a
normalised filename. This project models the pure logic of its background worker
(`background.js`) as Dafny functions over `string`, and proves what that logic promises.
Each Dafny `char` stands for one UTF-16 code unit, as a JavaScript string character does.

- **Filenames** (`filenames.dfy`). `buildPdfFilename`, `buildReferencesFilename` and
  `buildReferencesJsonFilename` share one pipeline, `BuildFilename`. It turns a colon and the
  whitespace after it into `". "`, strips `<>:"/\|?*` and U+0000–U+001F, collapses and trims
  whitespace, and falls back to the id when the title is empty. It then composes
  `id + " " + title + suffix`, collapses runs of dots, and caps the length at 220.
- **JavaScript text helpers** (`jstext.dfy`). These cover `\s` (ECMA-262 WhiteSpace and
  LineTerminator), `.replace(/\s+/g, ' ')`, `.trim()`, ASCII case folding for `/i`,
  `Array.prototype.join`, digit values, and the leftmost-match rule of `String.prototype.match`.
- **CSV** (`csv.dfy`). This models `csvEscape` and `buildReferencesCsv`. The partner is a strict
  CSV reader: reading the built file back gives the header and every reference's five fields.
- **Paper id** (`paperid.dfy`). `extractPaperId` tries three regexes in order, each as an
  explicit leftmost scanner. It then removes one trailing `.pdf`, case-insensitively.
- **The `- arXiv` tail** (`arxivtail.dfy`). The `\s*-\s*arXiv.*$` pattern (with `/i`) that
  both the head-title parser and the JSON title remove, and when it cannot start inside a title.
- **Head title** (`headtitle.dfy`). `parseArxivHeadTitle` is modelled as a scanner that follows
  the regex's backtracking order. The `\s*` before the title is greedy and the title `(.+?)` is lazy.
- **Choices** (`choices.dfy`). This covers the id choice (the head-title id wins over the URL
  id), the title choice with its `"references"` fallback, and the test for a title that needs
  refetching.
- **References** (`references.dfy`). This covers `pickBestUrl`, the filter and map from API
  items to entries, the `v\d+$` version strip, and the JSON payload record.
  - API fields are plain strings, and the empty string stands for an absent or falsy value.
- **Entities** (`entities.dfy`). `decodeEntities` is one left-to-right pass of its global regex.
  The partner is an encoder of the five named characters, with `Decode(Encode(s)) == Some(s)`.
- **Desired-filename table** (`desiredfilenames.dfy`). `rememberDesiredFilename` and the
  `onDeterminingFilename` listener are modelled as an immutable state machine.
  - The state is a map from URL to name plus a list of pending deletions.
  - The events are `Remember(url, name, now)`, `Determine(url, default)` and `Tick(now)`.

Where the written description of the extension and the code differ, the model follows the code:

- The colon rule is `/:\s*/g`. It also turns a colon followed by no whitespace into `". "`,
  not only `": "` (`Filenames.ColonBecomesPeriod`).
- The second `extractPaperId` pattern can never decide the result. Whatever it matches, the
  first pattern matches at the same place (`PaperId.SecondNeverDecides`).
- The `[\s.]+$` replacement after the dot collapse never changes the name, because the name
  always ends in its extension (`Filenames.TrailingReplaceNeverFires`).
- An old-style id such as `hep-th/9901001` comes out as `hep-th` (`PaperId.OldStyleIdExample`).
- A remembered name is not always consumed at first use. An empty name is falsy, so it is
  never handed out and stays until its timer fires (`DesiredFilenames.EmptyNameIgnored`).
- A re-remembered URL keeps its older timer. That timer deletes the newer name early
  (`DesiredFilenames.StaleTimerDeletesNewName`).
- In the JSON title, `.*` cannot cross a line terminator. So `- arXiv` followed by a line
  break is not stripped. `References.JsonTitleHasNoArxivTail` therefore assumes a title
  without line terminators.

## Model

| member | source | states |
|---|---|---|
| `Filenames.ReplaceColons` | background.js:324 | the result holds no colon, and text without a colon is returned unchanged |
| `Filenames.ColonBecomesPeriod` | background.js:324 | a colon together with all the whitespace after it becomes `". "`, and scanning goes on after it |
| `Filenames.StripIllegal` | background.js:326 | the result has no character illegal on Windows (the nine reserved punctuation marks and U+0000–U+001F), every kept character occurs in the input, every legal input character is kept, and legal input is unchanged |
| `Filenames.StripIllegalAppend` | background.js:326 | stripping the concatenation of two texts gives the concatenation of their stripped forms |
| `Filenames.StripIllegalChar` | background.js:326 | one character is removed exactly when it is illegal and kept otherwise; with the lemma above this fixes the result, order and multiplicity included |
| `Filenames.CleanTitle` | background.js:324-328 | the cleaned title has no illegal character, no two spaces in a row, and no leading or trailing whitespace; what it keeps is fixed by `CleanTitleKeepsClean` and `CleanTitleAround` together with the content lemmas of each step |
| `Filenames.CleanTitleKeepsClean` | background.js:324-328 | a title that is already clean passes through the cleaning unchanged |
| `Filenames.CleanTitleAround` | background.js:324-328 | a clean title with any whitespace before and after it is cleaned to exactly that title |
| `Filenames.CollapseLeavesNoDoubleDot` | background.js:251 | after `/\.+/g` → `.` (`Filenames.CollapseDotRuns`) no two dots are adjacent |
| `Filenames.CollapseKeepsSingleDots` | background.js:251 | text without two adjacent dots is left unchanged by the dot collapse |
| `Filenames.DotCollapsesAgree` | background.js:334 | the PDF builder's `/\.\.+/g` (`Filenames.CollapseRepeatedDots`) and the other builders' `/\.+/g` give the same result on every string |
| `Filenames.ReplaceTrailingRun` | background.js:334-339 | `/[\s.]+$/` is replaced at the start of the maximal trailing run of spaces and dots; without such a run the text is unchanged |
| `Filenames.TrailingReplaceNeverFires` | background.js:332-334 | the `[\s.]+$` replacement leaves the composed, dot-collapsed name unchanged for every kind, id and title |
| `Filenames.Cap` | background.js:336-340 | the result is at most 220 long; a name within the limit is kept; a longer one becomes its first 216 (or 215) characters, minus trailing dots and spaces, plus the extension |
| `Filenames.BuildFilename` | background.js:322-342 | the name ends with its extension and is at most 220 long; within the limit it is the dot-collapsed `id title suffix`, otherwise the cut-and-stripped prefix of it plus the extension |
| `Filenames.BuildPdfFilename` | background.js:322-342 | the PDF name ends in `.pdf` and is at most 220 long |
| `Filenames.BuildReferencesFilename` | background.js:246-258 | the CSV name ends in `.csv`, is at most 220 long, and ends in ` - references.csv` when not cut |
| `Filenames.BuildReferencesJsonFilename` | background.js:298-310 | the JSON name ends in `.json`, is at most 220 long, and ends in ` - references.json` when not cut |
| `Filenames.BuiltNameIsSafe` | background.js:324-340 | for an id without illegal characters or whitespace, the whole name has no illegal character, no double dot and no double space |
| `Filenames.CleanInputKept` | background.js:322-342 | a clean title with a short, single-dotted composition gives exactly `id + " " + title + suffix` (the composition `Filenames.ComposeName` passes through the rest unchanged) |
| `Filenames.BlankTitleUsesId` | background.js:330-332 | a title that cleans to nothing is replaced by the id, giving `id + " " + id + suffix` |
| `Filenames.PdfFilenameExample` | background.js:322-342 | `buildPdfFilename("2508.14825", "A Clean Title")` is `"2508.14825 A Clean Title.pdf"` |
| `JsText.CollapseWhitespace` | background.js:328 | `/\s+/g` → `' '` leaves no two whitespace characters in a row, never lengthens, and keeps whether each end is whitespace |
| `JsText.CollapseAppend` | background.js:328 | when a join does not fall between two whitespace characters, collapsing the whole is collapsing each part |
| `JsText.CollapseRun` | background.js:328 | text without whitespace is kept, and the whitespace run after it becomes one space before the collapsed rest |
| `JsText.CollapseAround` | background.js:328 | text that begins and ends with a non-blank collapses independently of what surrounds it |
| `JsText.BlankAroundCollapses` | background.js:328 | collapsing and then trimming whitespace around single-spaced trimmed text gives that text |
| `JsText.CollapseKeepsSingleSpaced` | background.js:328 | text with no two whitespace characters in a row is unchanged by the collapse |
| `JsText.Trim` | background.js:328 | `trim()` gives text with no leading or trailing whitespace, and leaves such text unchanged |
| `JsText.TrimAround` | background.js:328 | `trim()` removes exactly the whitespace around a trimmed text |
| `JsText.TrimIsSlice` | background.js:328 | the trimmed text is a slice of the input with only whitespace cut off either end |
| `JsText.FindFirst` | background.js:354 | the position found is the leftmost one in range where the pattern matches; none is found exactly when no position matches |
| `Csv.DoubleQuotes` | background.js:241 | doubling quotes never shortens the text and leaves text without `"` unchanged |
| `Csv.CsvEscape` | background.js:238-244 | a value without `"`, `,` or `\n` is returned as is; otherwise it is wrapped in quotes |
| `Csv.CarriageReturnNotQuoted` | background.js:240 | a value holding only `\r` as a special character is not quoted |
| `Csv.FieldRoundTrip` | background.js:238-244 | reading an escaped field back, up to a following `,`, `\n` or the end, gives the original value and the rest |
| `Csv.NatToDecimalRoundTrip` | background.js:233 | the decimal digits of a non-negative year read back as that year |
| `Csv.IntToDecimalRoundTrip` | background.js:233 | `String(year)` (`Csv.IntToDecimal`) is an optional `-` and digits that read back as the year |
| `Csv.YearField` | background.js:233 | the year field is empty exactly when the year is null or 0, and is the year's decimal `String` otherwise |
| `Csv.Fields` | background.js:233 | a row has five fields; title, DOI and arXiv id are empty exactly when absent or empty and are the entry's values when present; the year is its field; the last field is the URL |
| `Csv.BuildCsv` | background.js:230-236 | the file starts with `Title,Year,DOI,arXiv,URL\n` and ends with `\n` |
| `Csv.EmptyCsv` | background.js:230-236 | no references give `"Title,Year,DOI,arXiv,URL\n\n"` |
| `Csv.RecordRoundTrip` | background.js:234 | a row of escaped fields joined by `,` and ended by `\n` reads back as those fields |
| `Csv.RecordsRoundTrip` | background.js:235 | rows joined by `\n` read back as the rows |
| `Csv.BuildCsvIsLines` | background.js:230-236 | the built file is the header record followed by one record per reference, or one empty record when there are none |
| `Csv.CsvRoundTrip` | background.js:230-244 | reading the CSV back gives the header and then the five fields of every reference, whatever quotes, commas or newlines they hold |
| `PaperId.FirstMatch` | background.js:348 | the position found is the leftmost start of `arxiv.org/abs/` or `arxiv.org/pdf/`, in any case, followed by a segment character; none exactly when there is no such start |
| `PaperId.SecondMatch` | background.js:349 | the position found matches the anchored second pattern; none exactly when no position does |
| `PaperId.ThirdMatch` | background.js:350 | the position found is the leftmost `NNNN.NNNN[N][vN]`; none exactly when there is none |
| `PaperId.Segment` | background.js:348 | the captured `[^/?#]+` is the text right after `arxiv.org/abs/` or `arxiv.org/pdf/`: non-empty, free of `/`, `?` and `#`, and maximal (it runs to the end of the URL or to a `/`, `?` or `#`) |
| `PaperId.NewStyleId` | background.js:350 | the captured id is the text of `url` at the match position, at least 9 long, and made of segment characters only |
| `PaperId.NewStyleIdLongest` | background.js:350 | the capture is a whole `NNNN.NNNN[N][vN…]` id (`v` in either case), and no longer prefix of the rest of the URL is one: the greedy regex takes the longest id |
| `PaperId.StripPdf` | background.js:358 | a trailing `.pdf`, in any case, is removed once; anything else is unchanged |
| `PaperId.ExtractPaperId` | background.js:345-366 | the result is null exactly when neither the first nor the third pattern matches anywhere; an id has only segment characters |
| `PaperId.SecondImpliesFirst` | background.js:348-349 | wherever the second pattern matches, the first matches too |
| `PaperId.SecondNeverDecides` | background.js:348-349 | if the second pattern matches, the first pattern has already found a match |
| `PaperId.ExtractFromArxivPath` | background.js:353-361 | the segment after the leftmost `arxiv.org/abs/` or `arxiv.org/pdf/`, minus `.pdf`, is the result |
| `PaperId.ExtractFallsBackToId` | background.js:353-361 | with no arXiv path anywhere, the leftmost new-style id is the result |
| `PaperId.NewStyleIdEndsInDigit` | background.js:350 | the captured new-style id ends in a digit |
| `PaperId.ArxivUrlGivesSegment` | background.js:345-366 | for `https://arxiv.org/abs/<seg><rest>` and the `pdf` form the result is `<seg>` minus one `.pdf` |
| `PaperId.PdfUrlExample` | background.js:345-366 | `https://arxiv.org/pdf/2508.14825v2.pdf` gives `2508.14825v2` |
| `PaperId.OldStyleIdExample` | background.js:348 | `https://arxiv.org/abs/hep-th/9901001` gives `hep-th` |
| `PaperId.BareIdExample` | background.js:350 | the bare text `2508.14825v2` gives itself |
| `HeadTitles.TitleEndsBeforeIff` | background.js:315 | what may follow the title is exactly all whitespace or whitespace, `-` and an `arXiv` word |
| `HeadTitles.LazyTitle` | background.js:315 | the lazy title is the shortest length that fits, and none is found exactly when no length fits |
| `HeadTitles.StartFrom` | background.js:315 | the greedy `\s*` gives back characters one at a time; the start found is the first, from the longest run down, where a title fits |
| `HeadTitles.TitleMatchShape` | background.js:315 | a title match starts after whitespace only, has no line terminator, and is followed by an allowed ending |
| `HeadTitles.IdGroupShape` | background.js:315 | the id group follows whitespace only, sits between `[` and `]`, and holds no `]` |
| `HeadTitles.ParseHeadTitle` | background.js:312-320 | an empty title gives null; without an id the title is the whole input |
| `HeadTitles.ParsedPieces` | background.js:315-317 | a captured id and title sit as the regex says: whitespace, `[`, id, `]`, whitespace, title, then an allowed ending; the id is non-empty without `]`, and the title is non-empty without a line terminator |
| `HeadTitles.ParseBracketedTitle` | background.js:315-317 | whitespace, `[id]`, whitespace, a title and an allowed ending give exactly that id and title, for every non-empty trimmed one-line title in which no dash is followed by the word `arxiv` (hyphens are allowed) |
| `ArxivTail.NoTailInsideTitle` | background.js:276 | no `- arXiv` tail match starts inside a trimmed title in which no dash is followed by `arxiv`, when what follows the title begins with whitespace and a dash or ends |
| `HeadTitles.HeadTitleExample` | background.js:312-320 | `"[2508.14825] Some Title - arXiv"` gives id `2508.14825` and title `Some Title` |
| `HeadTitles.NoBracketNoId` | background.js:319 | a title whose first non-blank character is not `[` gives no id and the whole input |
| `HeadTitles.UnclosedBracketNoId` | background.js:319 | a `[` that is never closed gives no id and the whole input |
| `Choices.ChoosePaperId` | background.js:131 | the head-title id wins; otherwise the URL id when it is non-empty; otherwise none; a chosen id is never empty |
| `Choices.HeadIdWinsOverUrl` | background.js:126-131 | when the head title carries an id, that id is used whatever the URL says |
| `Choices.UrlIdWithoutHeadId` | background.js:126-131 | without a head-title id, the URL id is used, and there is no id when the URL has none |
| `Choices.TitlePart` | background.js:132 | the title part is the parsed title when there is one and it is non-empty, and the head title in every other case |
| `Choices.TitlePartOfHeadTitle` | background.js:130-132 | with an id the title part is the parsed title; otherwise it is the head title itself |
| `Choices.ReferencesTitlePart` | background.js:167 | the references title is never empty, and falls back to `"references"` only when the title part is empty |
| `Choices.ReferencesTitleFallback` | background.js:165-167 | the `"references"` fallback is taken exactly when the head title is empty |
| `Choices.LooksLikePdfNameIff` | background.js:138 | `/\.pdf\s*$/i` holds exactly when `.pdf`, in any case, is followed by whitespace only |
| `Choices.LooksLikeBareIdIff` | background.js:138 | the scan `Choices.LooksLikeBareId` holds exactly when the trimmed title is one whole new-style id |
| `Choices.BareIdRefetches` | background.js:138 | a whole new-style id with blanks around it trims to itself and asks for a refetch (`Choices.NeedsTitleRefetch`) |
| `Choices.WordTitleKept` | background.js:138 | a trimmed title starting with a non-digit and not ending in `f` or `F` is kept: `Choices.NeedsTitleRefetch` is false |
| `Choices.BareIdTitleRefetches` | background.js:138 | the title `2508.14825v2` asks for a refetch |
| `References.OrNull` | background.js:213 | the `or null` fallback is null exactly for the empty string and keeps any other value |
| `References.YearOrNull` | background.js:214 | a year is null exactly when absent or 0 |
| `References.PickBestUrl` | background.js:221-228 | the URL is empty exactly when all four sources are empty |
| `References.FirstNonEmpty` | background.js:222-227 | the first non-empty candidate, preceded only by empty ones; empty exactly when all are empty |
| `References.PickBestUrlIsFirstCandidate` | background.js:221-228 | `pickBestUrl` is the first non-empty entry of `References.Candidates`, the list of the open-access URL, `https://doi.org/<DOI>`, the API URL and `https://arxiv.org/abs/<ArXiv>` |
| `References.PickBestUrlPriority` | background.js:221-228 | a non-empty candidate preceded only by empty candidates is the one picked |
| `References.ToEntry` | background.js:212-218 | title, DOI and arXiv id are `OrNull` of the source field and the year is `YearOrNull` of the source year (null for an empty or zero value, the source value otherwise); the URL is `pickBestUrl` |
| `References.MapReferences` | background.js:209-218 | one entry per item that has a cited paper, each normalised |
| `References.MapReferencesAppend` | background.js:209-218 | mapping distributes over concatenation, so order is kept |
| `References.MapReferencesDropsAbsent` | background.js:211 | an item without a cited paper contributes nothing |
| `References.MapReferencesKeepsPresent` | background.js:210-218 | an item with a cited paper contributes its entry in place |
| `References.MapReferencesAllPresent` | background.js:209-218 | when every item has a cited paper, entry i is item i's entry |
| `References.StripVersion` | background.js:200 | the result is a prefix of the input, and either the input itself or at least two characters shorter |
| `References.StripVersionKeeps` | background.js:200 | text without a `v`-digits suffix is unchanged |
| `References.StripVersionRemoves` | background.js:200 | `base + v + digits` (either case of `v`) gives `base` |
| `References.StripVersionExample` | background.js:200 | `2508.14825v2` gives `2508.14825` |
| `References.StripArxivTail` | background.js:276 | the result is the input cut at the leftmost `\s*-\s*arXiv.*$`, and the input itself exactly when there is none |
| `References.StripArxivTailAt` | background.js:276 | the input is cut at the leftmost position where the tail matches |
| `References.JsonTitle` | background.js:276 | the JSON title is trimmed and never longer than the raw title |
| `References.JsonTitleHasNoArxivTail` | background.js:276 | for a title without line terminators, the JSON title contains no `- arXiv` tail |
| `References.JsonTitleDropsTail` | background.js:276 | a trimmed title, in which no dash is followed by `arxiv`, followed by a `- arXiv…` tail gives back the title |
| `References.HyphenatedJsonTitleExample` | background.js:276 | `"Self-Attention - arXiv"` keeps its hyphen and gives `"Self-Attention"` |
| `References.JsonTitleExample` | background.js:276 | `"Some Title - arXiv"` gives `"Some Title"` |
| `References.JsonPayload` | background.js:274-279 | `count` equals the number of references, the references and id are those given, and the title is the trimmed `JsonTitle` of the raw title, which carries no `- arXiv` tail (`JsonTitleHasNoArxivTail`) |
| `Entities.CodeUnit` | background.js:467 | `String.fromCharCode` keeps a value below 65536 |
| `Entities.EntityAt` | background.js:464 | a match starts with `&`, ends with `;`, is at least four long, and names a 16-bit code unit |
| `Entities.Decode` | background.js:460-472 | the decoded text is never longer than the input, and equals the input exactly when no position starts a match |
| `Entities.NoAmpersandUnchanged` | background.js:464 | text without `&` is unchanged |
| `Entities.NoHashDecodes` | background.js:464-469 | text without `#` always decodes, since only numeric references can name a surrogate |
| `Entities.DecodeAfterEntity` | background.js:464 | a match is replaced and scanning resumes right after it |
| `Entities.DecodeAfterPlain` | background.js:464 | a character other than `&` is copied and scanning moves on by one |
| `Entities.NamedAt` | background.js:462-465 | `&amp;`, `&lt;`, `&gt;` and `&quot;` name `&`, `<`, `>` and `"` |
| `Entities.DecimalRefAt` | background.js:466-467 | `&#` digits `;` names the low 16 bits of the decimal value |
| `Entities.HexRefAt` | background.js:468-469 | `&#x` hex digits `;` names the low 16 bits of the hexadecimal value |
| `Entities.AmpersandNotEntity` | background.js:464 | `&` followed by neither `#` nor the start of one of the four names starts no match |
| `Entities.HashNotEntity` | background.js:464 | `&#` followed by neither a digit nor a lower-case `x` starts no match |
| `Entities.DecodeEncode` | background.js:460-472 | decoding the escaped text gives the original text back |
| `Entities.OnePassExample` | background.js:463-464 | `&amp;lt;` becomes `&lt;`, not `<` |
| `Entities.NbspUnchanged` | background.js:464 | `&nbsp;` is left as it is |
| `Entities.UpperHexUnchanged` | background.js:468 | `&#X41;` is left as it is |
| `Entities.HexTruncatedExample` | background.js:469 | `&#x1F600;` gives the single code unit U+F600 |
| `DesiredFilenames.Remember` | background.js:42-46 | the URL now maps to the name, other URLs are untouched, and the pending deletions are the old ones plus exactly one of the URL 60 000 ms later |
| `DesiredFilenames.Determine` | background.js:50-62 | a stored non-empty name is handed out and its entry removed; otherwise the default is suggested and the table is returned unchanged; timers and other URLs are untouched |
| `DesiredFilenames.Tick` | background.js:45 | a URL survives exactly when no deletion of it is due; surviving names are unchanged; exactly the deletions not yet due stay scheduled |
| `DesiredFilenames.RememberTracked` | background.js:42-46 | remembering keeps every stored URL scheduled for deletion |
| `DesiredFilenames.DetermineTracked` | background.js:50-62 | a lookup keeps every stored URL scheduled for deletion |
| `DesiredFilenames.TickTracked` | background.js:45 | firing due deletions keeps every remaining URL scheduled for deletion |
| `DesiredFilenames.RunTracked` | background.js:41-63 | along any sequence of events, every stored URL stays scheduled for deletion |
| `DesiredFilenames.RunFromEmptyTracked` | background.js:41-63 | from the empty table the worker starts with, every stored URL is always scheduled for deletion |
| `DesiredFilenames.RememberThenDetermine` | background.js:52-57 | a remembered non-empty name is handed out by the next lookup of its URL, which removes it |
| `DesiredFilenames.ConsumedOnce` | background.js:54-57 | a second lookup of the same URL gets the browser's default |
| `DesiredFilenames.EmptyNameIgnored` | background.js:52-53 | an empty name is never handed out and is not removed by the lookup |
| `DesiredFilenames.OtherUrlUntouched` | background.js:52-57 | looking up another URL neither uses nor removes the name |
| `DesiredFilenames.SurvivesUntilDue` | background.js:45 | before its minute is up, and with no older deletion of the URL due, the name survives |
| `DesiredFilenames.ExpiresWhenDue` | background.js:45 | once its minute is up, the name is gone |
| `DesiredFilenames.StaleTimerDeletesNewName` | background.js:42-46 | re-remembering a URL does not cancel the first timer, which deletes the newer name |
| `DesiredFilenames.TwoDownloadsExample` | background.js:41-63 | remember then two lookups give the stored name, then the default |

## Left out

- content.js and popup.js are not part of this model. They are DOM queries, link decoration,
  message listeners and popup status text.
- The download counter (`updateDownloadCount`) is left out. It is a read-increment-write on
  extension storage.
- Context-menu and toolbar registration, the `save*` orchestration functions,
  `chrome.downloads`, notifications and tab messaging are left out. These are calls into the
  browser platform.
  - The model keeps only the decisions those functions make on strings: the id choice, the
    title choice and the refetch test.
- `getTitleFromTabOrFallback`, the arXiv API and abstract-page scrapers and the Semantic Scholar
  fetch are left out. They are network and DOM I/O over external formats.
  - The reference mapping takes the API items as its input.
- `cleanFilename` is left out. Nothing calls it.
- `JSON.stringify` formatting, `encodeURIComponent` and the data-URL text are left out. These
  are library output. The payload is modelled as a record.
- `setTimeout` is replaced by an abstract clock. `Tick(now)` fires every deletion due by `now`.
  - The model does not require the events' times to increase.
  - The `conflictAction: 'uniquify'` passed with the suggestion is a constant and is not modelled.
- `Entities.Decode`: a numeric reference whose low 16 bits are a surrogate makes the result
  `None`. A Dafny `char` cannot hold a lone surrogate, whereas JavaScript would keep the unit.
- Characters outside the Basic Multilingual Plane are left out. Such a character is two
  code units in JavaScript and one `char` here, so lengths and the 220 cut could differ for it.
- `Entities.DecimalRefAt` and `Entities.HexRefAt` take the digit value exactly. `parseInt`
  loses precision above 2^53, and `Infinity` gives code unit 0. Neither is modelled.
- `Csv.IntToDecimalRoundTrip` covers integer years only. A non-integer year, or one of
  1e21 or more, would print differently through `String`.
- Null inputs are left out. Absent values are the empty string or `None`, and JavaScript
  truthiness is read accordingly.
- `Csv.CsvEscape` quotes on `"`, `,` and `\n` only, as the source does. A `\r` stays unquoted
  (`Csv.CarriageReturnNotQuoted`).

=== FILE: arxivtail.dfy ===
/**
 * The `\s*-\s*arXiv.*$` tail (with the `i` flag) that both the head-title parser and
 * the references JSON title strip from an arXiv page title, and the facts about it
 * that the two share.
 */
module ArxivTail {
  import opened JsText

  /**
   * `v` is matched in full by `\s*-\s*arXiv.*$` with the `i` flag: whitespace, a dash,
   * then what `IsArxivWord` accepts.
   */
  predicate IsArxivTail(v: string) {
    var a := LeadingCount(v, IsWhitespace);
    a < |v| && v[a] == '-' && IsArxivWord(v[a + 1..])
  }

  /** `\s*arXiv.*$`: whitespace, `arxiv` in any ASCII case, then anything but a line terminator. */
  predicate IsArxivWord(w: string) {
    var b := LeadingCount(w, IsWhitespace);
    CiAt(w, b, "arxiv") && NoneOf(w[b + 5..], IsLineTerminator)
  }

  /** The regex `\s*-\s*arXiv.*$` matches starting at `i`. */
  predicate ArxivTailAt(s: string, i: nat) {
    i <= |s| && IsArxivTail(s[i..])
  }

  /** Whatever follows a full tail match, as long as it has no line terminator, still matches. */
  lemma ArxivTailExtends(v: string, w: string)
    requires IsArxivTail(v) && NoneOf(w, IsLineTerminator)
    ensures IsArxivTail(v + w)
  {
    var a := LeadingCount(v, IsWhitespace);
    LeadingCountExtends(v, w, IsWhitespace);
    assert (v + w)[a + 1..] == v[a + 1..] + w;
    ArxivWordExtends(v[a + 1..], w);
  }

  lemma ArxivWordExtends(u: string, w: string)
    requires IsArxivWord(u) && NoneOf(w, IsLineTerminator)
    ensures IsArxivWord(u + w)
  {
    var b := LeadingCount(u, IsWhitespace);
    LeadingCountExtends(u, w, IsWhitespace);
    CiAtExtends(u, w, b, "arxiv");
    assert b + 5 <= |u|;
    DropConcat(u, w, b + 5);
    ConcatNoneOf(u[b + 5..], w, IsLineTerminator);
  }

  lemma CiAtExtends(u: string, w: string, i: nat, p: string)
    requires CiAt(u, i, p)
    ensures CiAt(u + w, i, p)
  {
    assert forall j | i <= j < i + |p| :: (u + w)[j] == u[j];
  }

  lemma ExampleTail()
    ensures IsArxivTail(" - arXiv")
  {
    var v := " - arXiv";
    assert v == [' '] + ("-" + " arXiv");
    SpaceThen("-" + " arXiv");
    assert LeadingCount("-" + " arXiv", IsWhitespace) == 0;
    assert v[2..] == " arXiv";
    ExampleWord();
  }

  lemma ExampleWord()
    ensures IsArxivWord(" arXiv")
  {
    SpaceThen("arXiv");
    assert " arXiv" == [' '] + "arXiv";
    assert CiAt(" arXiv", 1, "arxiv");
  }

  lemma SpaceThen(x: string)
    requires x != [] && !IsWhitespace(x[0])
    ensures LeadingCount([' '] + x, IsWhitespace) == 1
  {
    assert ([' '] + x)[1..] == x;
  }

  /** `arxiv`, in any ASCII case, after optional whitespace at the start of `u`. */
  predicate StartsArxivWord(u: string) {
    CiAt(u, LeadingCount(u, IsWhitespace), "arxiv")
  }

  /** No dash of `t` is followed, after optional whitespace, by the word `arxiv`. */
  predicate NoArxivDash(t: string) {
    forall j | 0 <= j < |t| :: t[j] == '-' ==> !StartsArxivWord(t[j + 1..])
  }

  /** Whitespace, then the end or a dash: how whatever the tail regex accepts begins. */
  predicate DashOrEnd(u: string) {
    var a := LeadingCount(u, IsWhitespace);
    a == |u| || u[a] == '-'
  }

  lemma DashFree(t: string)
    requires forall i | 0 <= i < |t| :: t[i] != '-'
    ensures NoArxivDash(t)
  {
  }

  lemma ArxivTailDashOrEnd(v: string)
    requires IsArxivTail(v)
    ensures DashOrEnd(v)
  {
  }

  /**
   * A tail match cannot start inside a trimmed title none of whose dashes is followed
   * by `arxiv`, when what comes after the title starts the way a tail does.
   */
  lemma NoTailInsideTitle(t: string, tail: string, j: nat)
    requires Trimmed(t) && NoArxivDash(t) && DashOrEnd(tail) && j < |t|
    ensures !ArxivTailAt(t + tail, j)
  {
    var v := t[j..];
    assert (t + tail)[j..] == v + tail;
    assert v[|v| - 1] == t[|t| - 1];
    forall i | 0 <= i < |v| && v[i] == '-'
      ensures !StartsArxivWord(v[i + 1..])
    {
      assert v[i] == t[j + i] && v[i + 1..] == t[j + i + 1..];
    }
    NoTailAtStart(v, tail);
  }

  lemma NoTailAtStart(v: string, tail: string)
    requires v != [] && !IsWhitespace(v[|v| - 1]) && NoArxivDash(v) && DashOrEnd(tail)
    ensures !IsArxivTail(v + tail)
  {
    var a := LeadingCount(v, IsWhitespace);
    LeadingCountExtends(v, tail, IsWhitespace);
    assert (v + tail)[a] == v[a];
    if v[a] == '-' {
      var u := v[a + 1..];
      assert (v + tail)[a + 1..] == u + tail;
      assert u != [] ==> u[|u| - 1] == v[|v| - 1];
      WordNotAcross(u, tail);
    }
  }

  /** The word cannot be completed by what follows `u` when that starts like a tail. */
  lemma WordNotAcross(u: string, tail: string)
    requires u == [] || !IsWhitespace(u[|u| - 1])
    requires !StartsArxivWord(u) && DashOrEnd(tail)
    ensures !StartsArxivWord(u + tail)
  {
    if u == [] {
      assert u + tail == tail;
      DashIsNoWord(tail);
    } else {
      var b := LeadingCount(u, IsWhitespace);
      LeadingCountExtends(u, tail, IsWhitespace);
      if b + 5 <= |u| {
        PrefixCiAt(u, tail, b);
      } else if tail != [] {
        CutWord(u, tail, b);
      }
    }
  }

  lemma DashIsNoWord(tail: string)
    requires DashOrEnd(tail)
    ensures !StartsArxivWord(tail)
  {
    var b := LeadingCount(tail, IsWhitespace);
    if b < |tail| {
      assert AsciiLower(tail[b]) == '-' != "arxiv"[0];
      assert tail[b + 0] == tail[b];
    }
  }

  lemma PrefixCiAt(u: string, tail: string, b: nat)
    requires b + 5 <= |u|
    ensures CiAt(u + tail, b, "arxiv") == CiAt(u, b, "arxiv")
  {
    assert forall i | b <= i < b + 5 :: (u + tail)[i] == u[i];
  }

  /** A word that would run past the end of `u` meets the tail's blank or dash. */
  lemma CutWord(u: string, tail: string, b: nat)
    requires b < |u| < b + 5 && tail != [] && DashOrEnd(tail)
    ensures !CiAt(u + tail, b, "arxiv")
  {
    var k := |u| - b;
    var c := tail[0];
    assert (u + tail)[b + k] == c;
    assert IsWhitespace(c) || c == '-';
    assert AsciiLower(c) == c;
    assert "arxiv"[k] in "rxiv";
  }
}

=== FILE: choices.dfy ===
/**
 * What the save commands take from the page before building a filename: the paper
 * id (the head title's `[id]` wins over the one read from the URL), the raw title
 * part, and the test that decides whether that title is worth replacing by the one
 * on the paper's abstract page.
 */
module Choices {
  import opened Wrappers
  import opened JsText
  import opened PaperId
  import opened HeadTitles

  /** `parsed?.id` is truthy. */
  predicate HasHeadId(parsed: Option<Parsed>) {
    parsed.Some? && parsed.value.id.Some? && parsed.value.id.value != []
  }

  /**
   * `parsed?.id || idFromUrl`, followed by the `!paperId` check: `None` is the
   * "Could not determine paper ID" path.
   */
  function ChoosePaperId(parsed: Option<Parsed>, fromUrl: Option<string>): (r: Option<string>)
    ensures r.Some? ==> r.value != []
    ensures HasHeadId(parsed) ==> r == parsed.value.id
    ensures !HasHeadId(parsed) ==> (r.Some? <==> fromUrl.Some? && fromUrl.value != [])
    ensures !HasHeadId(parsed) && r.Some? ==> r == fromUrl
  {
    if HasHeadId(parsed) then parsed.value.id
    else if fromUrl.Some? && fromUrl.value != [] then fromUrl
    else None
  }

  /** `parsed?.title || headTitle`, the title part of the PDF name. */
  function TitlePart(parsed: Option<Parsed>, headTitle: string): (t: string)
    ensures parsed.Some? && parsed.value.title != [] ==> t == parsed.value.title
    ensures !(parsed.Some? && parsed.value.title != []) ==> t == headTitle
  {
    if parsed.Some? && parsed.value.title != [] then parsed.value.title else headTitle
  }

  /** `parsed?.title || headTitle || "references"`, the title part of the reference exports. */
  function ReferencesTitlePart(parsed: Option<Parsed>, headTitle: string): (t: string)
    ensures t != []
    ensures t == "references" <==> TitlePart(parsed, headTitle) == [] || TitlePart(parsed, headTitle) == "references"
    ensures TitlePart(parsed, headTitle) != [] ==> t == TitlePart(parsed, headTitle)
  {
    var t := TitlePart(parsed, headTitle);
    if t != [] then t else "references"
  }

  /** The head title's id decides, whatever the URL says. */
  lemma HeadIdWinsOverUrl(h: string, url: string, id: string, title: string)
    requires ParseHeadTitle(h) == Some(Parsed(Some(id), title))
    ensures ChoosePaperId(ParseHeadTitle(h), ExtractPaperId(url)) == Some(id)
  {
    var _, _ := ParsedPieces(h, id, title);
  }

  /** Without an id in the head title, the URL's id is used, and none at all is an error. */
  lemma UrlIdWithoutHeadId(h: string, url: string)
    requires ParseHeadTitle(h).Some? ==> ParseHeadTitle(h).value.id.None?
    ensures ExtractPaperId(url).Some? && ExtractPaperId(url).value != [] ==>
      ChoosePaperId(ParseHeadTitle(h), ExtractPaperId(url)) == ExtractPaperId(url)
    ensures ExtractPaperId(url).None? ==> ChoosePaperId(ParseHeadTitle(h), ExtractPaperId(url)).None?
  {
  }

  /**
   * The `|| headTitle` fallback never fires on a parsed title: the title part is the
   * captured title when there is an id, and the whole head title otherwise.
   */
  lemma TitlePartOfHeadTitle(h: string)
    ensures ParseHeadTitle(h).Some? && ParseHeadTitle(h).value.id.Some? ==>
      TitlePart(ParseHeadTitle(h), h) == ParseHeadTitle(h).value.title
    ensures ParseHeadTitle(h).None? || ParseHeadTitle(h).value.id.None? ==> TitlePart(ParseHeadTitle(h), h) == h
  {
    var p := ParseHeadTitle(h);
    if p.Some? && p.value.id.Some? {
      var _, _ := ParsedPieces(h, p.value.id.value, p.value.title);
    }
  }

  /** The reference exports fall back to `references` exactly when the head title is empty. */
  lemma ReferencesTitleFallback(h: string)
    ensures ReferencesTitlePart(ParseHeadTitle(h), h) == (if h == [] then "references" else TitlePart(ParseHeadTitle(h), h))
  {
    TitlePartOfHeadTitle(h);
    var p := ParseHeadTitle(h);
    if p.Some? && p.value.id.Some? {
      var _, _ := ParsedPieces(h, p.value.id.value, p.value.title);
    }
  }

  // ---------------------------------------------------------------------------
  // The refetch test

  /** `/\.pdf\s*$/i` matches with its `.pdf` at `i`. */
  predicate PdfNameAt(t: string, i: nat) {
    i + 4 <= |t| && CiAt(t, i, ".pdf") && AllOf(t[i + 4..], IsWhitespace)
  }

  /** `/\.pdf\s*$/i.test(t)`: the text before the trailing whitespace ends in `.pdf`. */
  predicate LooksLikePdfName(t: string) {
    EndsWithPdf(t[..|t| - TrailingCount(t, IsWhitespace)])
  }

  /** `/^\s*\d{4}\.\d{4,5}(?:v\d+)?\s*$/i.test(t)`: the trimmed text is a whole new-style id. */
  predicate LooksLikeBareId(t: string) {
    var c := Trim(t);
    ThirdPatternAt(c, 0) && NewStyleId(c, 0) == c
  }

  /** The condition under which the title is fetched again from the abstract page. */
  predicate NeedsTitleRefetch(t: string) {
    t == [] || LooksLikePdfName(t) || LooksLikeBareId(t)
  }

  /** The scan agrees with the regex, which may put its `.pdf` anywhere followed by blanks only. */
  lemma LooksLikePdfNameIff(t: string)
    ensures LooksLikePdfName(t) <==> exists i: nat :: PdfNameAt(t, i)
  {
    var n := |t| - TrailingCount(t, IsWhitespace);
    if LooksLikePdfName(t) {
      var i := n - 4;
      assert forall k | i <= k < n :: t[..n][k] == t[k];
      assert forall k | 0 <= k < |t| - n :: t[n..][k] == t[n + k];
      assert PdfNameAt(t, i);
    }
    if i: nat :| PdfNameAt(t, i) {
      PdfNameEnd(t, i);
      assert forall k | i <= k < i + 4 :: t[..i + 4][k] == t[k];
    }
  }

  /** The scan agrees with the regex: the trimmed text is one whole new-style id. */
  lemma LooksLikeBareIdIff(t: string)
    ensures LooksLikeBareId(t) <==> IsNewStyleId(Trim(t))
  {
    var c := Trim(t);
    if IsNewStyleId(c) {
      IdPassesGuard(c);
    }
    if ThirdPatternAt(c, 0) {
      NewStyleIdLongest(c, 0);
      assert c[0..|c|] == c;
    }
  }

  /** A whole id passes the guard and is captured whole. */
  lemma WholeIdCaptured(x: string)
    requires IsNewStyleId(x)
    ensures ThirdPatternAt(x, 0) && NewStyleId(x, 0) == x
  {
    IdPassesGuard(x);
    NewStyleIdLongest(x, 0);
    assert x[0..|x|] == x;
  }

  /** An id of either length starts with the nine characters the guard looks at. */
  lemma IdPassesGuard(c: string)
    requires IsNewStyleId(c)
    ensures ThirdPatternAt(c, 0)
  {
    var n := if IdCore(c, 9) && VersionTail(c[9..]) then 9 else 10;
    assert c[0..4] == c[..4];
    assert IdCore(c, n);
    forall j | 0 <= j < 4
      ensures IsDigit(c[5..9][j])
    {
      assert c[5..9][j] == c[5 + j] == c[5..n][j];
    }
  }

  /** A `.pdf` followed by blanks only ends where the trailing whitespace starts. */
  lemma PdfNameEnd(t: string, i: nat)
    requires PdfNameAt(t, i)
    ensures |t| - TrailingCount(t, IsWhitespace) == i + 4
  {
    var n := TrailingCount(t, IsWhitespace);
    assert AsciiLower(t[i + 3]) == ".pdf"[3];
    assert !IsWhitespace(t[i + 3]);
  }

  /** A whole new-style id between blanks asks for a refetch. */
  lemma BareIdRefetches(w1: string, x: string, w2: string)
    requires AllOf(w1, IsWhitespace) && AllOf(w2, IsWhitespace)
    requires IsNewStyleId(x)
    ensures Trim(w1 + x + w2) == x
    ensures NeedsTitleRefetch(w1 + x + w2)
  {
    WholeIdCaptured(x);
    var s := w1 + x + w2;
    assert IsDigit(x[0]) by { assert x[..4][0] == x[0]; }
    NewStyleIdEndsInDigit(x, 0);
    assert s == w1 + (x + w2);
    LeadingCountAll(w1, x + w2, IsWhitespace);
    assert s[|w1|..] == x + w2;
    TrailingCountAll(x, w2, IsWhitespace);
    assert s[|w1|..|s| - |w2|] == x;
  }

  /** A trimmed title that starts with a non-digit and does not end in `f` is kept. */
  lemma WordTitleKept(t: string)
    requires t != [] && Trimmed(t) && !IsDigit(t[0]) && AsciiLower(t[|t| - 1]) != 'f'
    ensures !NeedsTitleRefetch(t)
  {
    assert TrailingCount(t, IsWhitespace) == 0;
    assert t[..|t|] == t;
    assert !EndsWithPdf(t) by {
      if |t| >= 4 {
        assert ".pdf"[3] == 'f';
        assert AsciiLower(t[|t| - 4 + 3]) != ".pdf"[3];
      }
    }
    assert Trim(t) == t;
    assert !ThirdPatternAt(t, 0) by {
      if |t| >= 9 {
        assert t[0..4][0] == t[0];
      }
    }
  }

  /** A title that is only the id, as in `"2508.14825v2"`, is refetched. */
  lemma BareIdTitleRefetches()
    ensures NeedsTitleRefetch("2508.14825" + "v2")
  {
    BareIdMatches();
    NewStyleIdLongest("2508.14825v2", 0);
    assert "2508.14825" + "v2" == "" + "2508.14825v2" + "";
    BareIdRefetches("", "2508.14825v2", "");
  }
}

=== FILE: csv.dfy ===
/**
 * The references CSV (`buildReferencesCsv`, `csvEscape`), together with a
 * strict reader for the same dialect that serves as its inverse: records end
 * with `\n`, fields are separated by `,`, and a field holding `"`, `,` or `\n`
 * is quoted with its quotes doubled.  A carriage return is an ordinary
 * character in this dialect, exactly as `csvEscape` treats it.
 */
module Csv {
  import opened Wrappers
  import opened JsText
  import opened References

  // ---------------------------------------------------------------------------
  // Escaping one value

  /** The regex `/[",\n]/` finds a character in `s`. */
  predicate NeedsQuoting(s: string) {
    '"' in s || ',' in s || '\n' in s
  }

  /** `s.replace(/"/g, '""')` */
  function DoubleQuotes(s: string): (r: string)
    ensures |r| >= |s|
    ensures '"' !in s ==> r == s
  {
    if s == [] then []
    else (if s[0] == '"' then "\"\"" else [s[0]]) + DoubleQuotes(s[1..])
  }

  /** `csvEscape` on a value already turned into a string. */
  function CsvEscape(v: string): (r: string)
    ensures !NeedsQuoting(v) ==> r == v
    ensures NeedsQuoting(v) ==> |r| >= |v| + 2 && r[0] == '"' && r[|r| - 1] == '"'
  {
    if NeedsQuoting(v) then "\"" + DoubleQuotes(v) + "\"" else v
  }

  /** `\r` alone does not trigger quoting. */
  lemma CarriageReturnNotQuoted()
    ensures CsvEscape("a\rb") == "a\rb"
  {
    assert !NeedsQuoting("a\rb");
  }

  // ---------------------------------------------------------------------------
  // Rendering a year: `String(n)` for an integer

  function DigitChar(d: nat): (c: char)
    requires d < 10
    ensures IsDigit(c) && c as int - '0' as int == d
  {
    ('0' as int + d) as char
  }

  /** The decimal digits of `n`, without leading zeros. */
  function NatToDecimal(n: nat): (r: string)
    ensures r != [] && AllOf(r, IsDigit)
    ensures r[0] == '0' <==> n == 0
    ensures n == 0 ==> r == "0"
  {
    if n < 10 then [DigitChar(n)] else NatToDecimal(n / 10) + [DigitChar(n % 10)]
  }

  /** `String(y)` for an integer `y`. */
  function IntToDecimal(y: int): string {
    if y < 0 then "-" + NatToDecimal(-y) else NatToDecimal(y)
  }

  /** Reading an integer back from its decimal form. */
  function ParseInt(s: string): int
    requires s != [] && (s[0] == '-' ==> AllOf(s[1..], IsDigit)) && (s[0] != '-' ==> AllOf(s, IsDigit))
  {
    if s[0] == '-' then -(DigitsValue(s[1..], 10) as int) else DigitsValue(s, 10)
  }

  lemma {:induction false} NatToDecimalRoundTrip(n: nat)
    ensures DigitsValue(NatToDecimal(n), 10) == n
  {
    if n >= 10 {
      NatToDecimalRoundTrip(n / 10);
      var r := NatToDecimal(n);
      assert r[..|r| - 1] == NatToDecimal(n / 10);
    }
  }

  /** The year column can be read back as the year it renders. */
  lemma IntToDecimalRoundTrip(y: int)
    ensures var s := IntToDecimal(y);
      s != [] && (s[0] == '-' ==> AllOf(s[1..], IsDigit)) && (s[0] != '-' ==> AllOf(s, IsDigit))
      && ParseInt(s) == y
  {
    if y < 0 {
      var s := IntToDecimal(y);
      assert s[1..] == NatToDecimal(-y);
      NatToDecimalRoundTrip(-y);
    } else {
      NatToDecimalRoundTrip(y);
    }
  }

  // ---------------------------------------------------------------------------
  // Rows and the whole file

  const HeaderFields: seq<string> := ["Title", "Year", "DOI", "arXiv", "URL"]

  /** `r.year || ''` */
  function YearField(y: Option<int>): (r: string)
    ensures r == "" <==> (y.None? || y.value == 0)
    ensures y.Some? && y.value != 0 ==> r == IntToDecimal(y.value)
  {
    match y
    case Some(v) => if v == 0 then "" else IntToDecimal(v)
    case None => ""
  }

  /** The five columns of one row, a falsy value giving an empty field. */
  function Fields(e: RefEntry): (fs: seq<string>)
    ensures |fs| == 5
    ensures fs[0] == "" <==> (e.title.None? || e.title.value == "")
    ensures fs[1] == "" <==> (e.year.None? || e.year.value == 0)
    ensures fs[2] == "" <==> (e.doi.None? || e.doi.value == "")
    ensures fs[3] == "" <==> (e.arxiv.None? || e.arxiv.value == "")
    ensures fs[4] == e.url
    ensures e.title.Some? ==> fs[0] == e.title.value
    ensures fs[1] == YearField(e.year)
    ensures e.doi.Some? ==> fs[2] == e.doi.value
    ensures e.arxiv.Some? ==> fs[3] == e.arxiv.value
  {
    [e.title.GetOr(""), YearField(e.year), e.doi.GetOr(""), e.arxiv.GetOr(""), e.url]
  }

  function EscapeAll(fs: seq<string>): (r: seq<string>)
    ensures |r| == |fs|
  {
    if fs == [] then [] else [CsvEscape(fs[0])] + EscapeAll(fs[1..])
  }

  /** One CSV line (without its newline) holding `fs`. */
  function Line(fs: seq<string>): string {
    Join(EscapeAll(fs), ",")
  }

  function Rows(refs: seq<RefEntry>): (r: seq<string>)
    ensures |r| == |refs|
  {
    if refs == [] then [] else [Line(Fields(refs[0]))] + Rows(refs[1..])
  }

  /** `buildReferencesCsv` */
  function BuildCsv(refs: seq<RefEntry>): (r: string)
    ensures |r| > 25 && r[..25] == "Title,Year,DOI,arXiv,URL\n"
    ensures r[|r| - 1] == '\n'
  {
    HeaderLineFacts();
    Join(HeaderFields, ",") + "\n" + Join(Rows(refs), "\n") + "\n"
  }

  lemma HeaderLineFacts()
    ensures Join(HeaderFields, ",") == "Title,Year,DOI,arXiv,URL"
    ensures Line(HeaderFields) == "Title,Year,DOI,arXiv,URL"
  {
    HeaderJoin();
    HeaderNeedsNoQuotes();
  }

  lemma HeaderJoin()
    ensures Join(HeaderFields, ",") == "Title,Year,DOI,arXiv,URL"
  {
    JoinFromYear();
    assert HeaderFields[1..] == ["Year", "DOI", "arXiv", "URL"];
  }

  lemma JoinFromYear()
    ensures Join(["Year", "DOI", "arXiv", "URL"], ",") == "Year,DOI,arXiv,URL"
  {
    JoinFromDoi();
    assert ["Year", "DOI", "arXiv", "URL"][1..] == ["DOI", "arXiv", "URL"];
  }

  lemma JoinFromDoi()
    ensures Join(["DOI", "arXiv", "URL"], ",") == "DOI,arXiv,URL"
  {
    assert ["arXiv", "URL"][1..] == ["URL"];
    assert Join(["arXiv", "URL"], ",") == "arXiv,URL";
    assert ["DOI", "arXiv", "URL"][1..] == ["arXiv", "URL"];
  }

  lemma HeaderNeedsNoQuotes()
    ensures EscapeAll(HeaderFields) == HeaderFields
  {
    var h := HeaderFields;
    forall i | 0 <= i < |h|
      ensures !NeedsQuoting(h[i])
    {
    }
    EscapeAllPlain(h);
  }

  lemma {:induction false} EscapeAllPlain(fs: seq<string>)
    requires forall i | 0 <= i < |fs| :: !NeedsQuoting(fs[i])
    ensures EscapeAll(fs) == fs
    decreases |fs|
  {
    if fs != [] {
      EscapeAllPlain(fs[1..]);
    }
  }

  /** No references: the header line and then one empty line. */
  lemma EmptyCsv()
    ensures BuildCsv([]) == "Title,Year,DOI,arXiv,URL\n\n"
  {
    HeaderLineFacts();
  }

  // ---------------------------------------------------------------------------
  // The reader

  /** A character an unquoted field may hold. */
  predicate IsPlain(c: char) {
    c != '"' && c != ',' && c != '\n'
  }

  /** Prepend `c` to the value of a parse result. */
  function Cons<T>(c: T, r: Option<(seq<T>, string)>): Option<(seq<T>, string)> {
    match r
    case Some((v, rest)) => Some(([c] + v, rest))
    case None => None
  }

  /** The body of a quoted field, after its opening quote, up to and including the closing one. */
  function ParseQuoted(s: string): (r: Option<(string, string)>)
    ensures r.Some? ==> |r.value.1| < |s|
    decreases |s|
  {
    if s == [] then None
    else if s[0] == '"' then
      if |s| > 1 && s[1] == '"' then Cons('"', ParseQuoted(s[2..])) else Some(([], s[1..]))
    else Cons(s[0], ParseQuoted(s[1..]))
  }

  /** One field, quoted or not, and what follows it. */
  function ParseField(s: string): (r: Option<(string, string)>)
    ensures r.Some? ==> |r.value.1| <= |s|
  {
    if s != [] && s[0] == '"' then ParseQuoted(s[1..])
    else
      var n := LeadingCount(s, IsPlain);
      Some((s[..n], s[n..]))
  }

  /** One record: fields separated by `,` and ended by `\n`. */
  function ParseRecord(s: string): (r: Option<(seq<string>, string)>)
    ensures r.Some? ==> |r.value.1| < |s|
    decreases |s|
  {
    match ParseField(s)
    case None => None
    case Some((f, rest)) =>
      if rest == [] then None
      else if rest[0] == '\n' then Some(([f], rest[1..]))
      else if rest[0] == ',' then Cons(f, ParseRecord(rest[1..]))
      else None
  }

  /** A whole file: records up to the end of the input. */
  function ParseRecords(s: string): Option<seq<seq<string>>>
    decreases |s|
  {
    if s == [] then Some([])
    else
      match ParseRecord(s)
      case None => None
      case Some((rec, rest)) =>
        match ParseRecords(rest)
        case None => None
        case Some(recs) => Some([rec] + recs)
  }

  // ---------------------------------------------------------------------------
  // Reading back what was written

  lemma {:induction false} QuotedRoundTrip(v: string, tail: string)
    requires tail == [] || tail[0] != '"'
    ensures ParseQuoted(DoubleQuotes(v) + "\"" + tail) == Some((v, tail))
    decreases |v|
  {
    if v == [] {
      assert DoubleQuotes(v) + "\"" + tail == "\"" + tail;
      QuotedClose(tail);
    } else {
      QuotedRoundTrip(v[1..], tail);
      var rest := DoubleQuotes(v[1..]) + "\"" + tail;
      QuotedStep(v, tail);
      assert [v[0]] + v[1..] == v;
    }
  }

  lemma QuotedClose(tail: string)
    requires tail == [] || tail[0] != '"'
    ensures ParseQuoted("\"" + tail) == Some(([], tail))
  {
    assert ("\"" + tail)[1..] == tail;
  }

  /** One character of the value, doubled if it is a quote, is read back as itself. */
  lemma QuotedStep(v: string, tail: string)
    requires v != []
    ensures ParseQuoted(DoubleQuotes(v) + "\"" + tail)
         == Cons(v[0], ParseQuoted(DoubleQuotes(v[1..]) + "\"" + tail))
  {
    var rest := DoubleQuotes(v[1..]) + "\"" + tail;
    var s := DoubleQuotes(v) + "\"" + tail;
    if v[0] == '"' {
      assert s == "\"\"" + rest;
      assert s[2..] == rest;
    } else {
      assert s == [v[0]] + rest;
      assert s[1..] == rest;
    }
  }

  /** `csvEscape` followed by a separator reads back as the original value. */
  lemma FieldRoundTrip(v: string, tail: string)
    requires tail == [] || tail[0] == ',' || tail[0] == '\n'
    ensures ParseField(CsvEscape(v) + tail) == Some((v, tail))
  {
    if NeedsQuoting(v) {
      QuotedFieldRoundTrip(v, tail);
    } else {
      PlainFieldRoundTrip(v, tail);
    }
  }

  lemma QuotedFieldRoundTrip(v: string, tail: string)
    requires NeedsQuoting(v)
    requires tail == [] || tail[0] == ',' || tail[0] == '\n'
    ensures ParseField(CsvEscape(v) + tail) == Some((v, tail))
  {
    QuotedOpen(v, tail);
  }

  lemma QuotedOpen(v: string, tail: string)
    requires tail == [] || tail[0] != '"'
    ensures ParseField("\"" + DoubleQuotes(v) + "\"" + tail) == Some((v, tail))
  {
    ParseFieldQuoted(DoubleQuotes(v), tail);
    QuotedRoundTrip(v, tail);
  }

  lemma ParseFieldQuoted(d: string, tail: string)
    ensures ParseField("\"" + d + "\"" + tail) == ParseQuoted(d + "\"" + tail)
  {
    assert ("\"" + d + "\"" + tail)[1..] == d + "\"" + tail;
  }

  lemma PlainFieldRoundTrip(v: string, tail: string)
    requires !NeedsQuoting(v)
    requires tail == [] || tail[0] == ',' || tail[0] == '\n'
    ensures ParseField(CsvEscape(v) + tail) == Some((v, tail))
  {
    assert AllOf(v, IsPlain) by {
      forall i | 0 <= i < |v|
        ensures IsPlain(v[i])
      {
        assert v[i] in v;
      }
    }
    LeadingCountAll(v, tail, IsPlain);
    assert (v + tail)[..|v|] == v && (v + tail)[|v|..] == tail;
  }

  /** A line of escaped fields reads back as those fields. */
  lemma {:induction false} RecordRoundTrip(fs: seq<string>, tail: string)
    requires fs != []
    ensures ParseRecord(Line(fs) + "\n" + tail) == Some((fs, tail))
    decreases |fs|
  {
    if |fs| == 1 {
      SingleRecordRoundTrip(fs[0], tail);
      assert fs == [fs[0]];
    } else {
      LineCons(fs);
      var after := Line(fs[1..]) + "\n" + tail;
      RecordStep(fs[0], after, Line(fs) + "\n" + tail);
      RecordRoundTrip(fs[1..], tail);
      assert [fs[0]] + fs[1..] == fs;
    }
  }

  lemma SingleRecordRoundTrip(f: string, tail: string)
    ensures ParseRecord(Line([f]) + "\n" + tail) == Some(([f], tail))
  {
    assert Line([f]) == CsvEscape(f);
    var s := Line([f]) + "\n" + tail;
    assert s == CsvEscape(f) + ("\n" + tail);
    FieldRoundTrip(f, "\n" + tail);
    ParseRecordNewline(s, f, tail);
  }

  lemma RecordStep(f: string, after: string, s: string)
    requires s == CsvEscape(f) + "," + after
    ensures ParseRecord(s) == Cons(f, ParseRecord(after))
  {
    assert s == CsvEscape(f) + ("," + after);
    FieldRoundTrip(f, "," + after);
    ParseRecordComma(s, f, after);
  }

  lemma LineCons(fs: seq<string>)
    requires |fs| > 1
    ensures Line(fs) == CsvEscape(fs[0]) + "," + Line(fs[1..])
  {
    assert EscapeAll(fs)[1..] == EscapeAll(fs[1..]);
  }

  lemma ParseRecordNewline(s: string, f: string, tail: string)
    requires ParseField(s) == Some((f, "\n" + tail))
    ensures ParseRecord(s) == Some(([f], tail))
  {
    assert ("\n" + tail)[1..] == tail;
  }

  lemma ParseRecordComma(s: string, f: string, after: string)
    requires ParseField(s) == Some((f, "," + after))
    ensures ParseRecord(s) == Cons(f, ParseRecord(after))
  {
    assert ("," + after)[1..] == after;
  }

  /** The text of `rows`, one line each, every line ended by `\n`. */
  function Lines(rows: seq<seq<string>>): string {
    if rows == [] then [] else Line(rows[0]) + "\n" + Lines(rows[1..])
  }

  lemma {:induction false} RecordsRoundTrip(rows: seq<seq<string>>)
    requires forall i | 0 <= i < |rows| :: rows[i] != []
    ensures ParseRecords(Lines(rows)) == Some(rows)
    decreases |rows|
  {
    if rows != [] {
      RecordRoundTrip(rows[0], Lines(rows[1..]));
      assert Lines(rows) == Line(rows[0]) + "\n" + Lines(rows[1..]);
      assert Lines(rows) != [];
      RecordsRoundTrip(rows[1..]);
      assert [rows[0]] + rows[1..] == rows;
    }
  }

  /** The five fields of every reference, row by row. */
  function FieldRows(refs: seq<RefEntry>): (rows: seq<seq<string>>)
    ensures |rows| == |refs|
    ensures forall i | 0 <= i < |rows| :: rows[i] == Fields(refs[i])
  {
    if refs == [] then [] else [Fields(refs[0])] + FieldRows(refs[1..])
  }

  lemma {:induction false} RowsAreLines(refs: seq<RefEntry>)
    requires refs != []
    ensures Join(Rows(refs), "\n") + "\n" == Lines(FieldRows(refs))
    decreases |refs|
  {
    var line := Line(Fields(refs[0]));
    assert Rows(refs)[1..] == Rows(refs[1..]);
    assert FieldRows(refs)[1..] == FieldRows(refs[1..]);
    if |refs| == 1 {
      assert Join(Rows(refs), "\n") == line;
      assert Lines(FieldRows(refs)[1..]) == [];
    } else {
      RowsAreLines(refs[1..]);
      assert Join(Rows(refs), "\n") == line + "\n" + Join(Rows(refs[1..]), "\n");
    }
  }

  /** The records the CSV holds: the header, then one per reference, or one empty record. */
  function CsvRecords(refs: seq<RefEntry>): (rows: seq<seq<string>>)
    ensures forall i | 0 <= i < |rows| :: rows[i] != []
  {
    [HeaderFields] + if refs == [] then [[""]] else FieldRows(refs)
  }

  lemma BuildCsvIsLines(refs: seq<RefEntry>)
    ensures BuildCsv(refs) == Lines(CsvRecords(refs))
  {
    var rest := if refs == [] then [[""]] else FieldRows(refs);
    var t := Join(Rows(refs), "\n") + "\n";
    assert t == Lines(rest) by {
      if refs == [] {
        EmptyRecordLines();
      } else {
        RowsAreLines(refs);
      }
    }
    HeaderThenRest(refs, rest);
    BuildCsvSplit(refs);
  }

  lemma HeaderThenRest(refs: seq<RefEntry>, rest: seq<seq<string>>)
    requires rest == if refs == [] then [[""]] else FieldRows(refs)
    ensures Lines(CsvRecords(refs)) == Join(HeaderFields, ",") + "\n" + Lines(rest)
  {
    assert CsvRecords(refs)[1..] == rest;
    HeaderLineFacts();
  }

  lemma BuildCsvSplit(refs: seq<RefEntry>)
    ensures BuildCsv(refs) == Join(HeaderFields, ",") + "\n" + (Join(Rows(refs), "\n") + "\n")
  {
  }

  lemma EmptyRecordLines()
    ensures Lines([[""]]) == "\n"
    ensures Join(Rows([]), "\n") + "\n" == "\n"
  {
    assert Line([""]) == "";
  }

  /**
   * Reading the CSV back gives the header and then exactly the five fields of
   * every reference, in order, whatever commas, quotes or newlines they hold;
   * with no references the file holds the header and one empty record.
   */
  lemma CsvRoundTrip(refs: seq<RefEntry>)
    ensures ParseRecords(BuildCsv(refs))
         == Some([HeaderFields] + if refs == [] then [[""]] else FieldRows(refs))
  {
    BuildCsvIsLines(refs);
    RecordsRoundTrip(CsvRecords(refs));
  }
}

=== FILE: desiredfilenames.dfy ===
/**
 * The short-lived table of desired filenames, keyed by download URL.
 *
 * `rememberDesiredFilename` stores a name and schedules its own deletion of the URL a
 * minute later; the `onDeterminingFilename` listener hands out a stored (truthy) name
 * once and deletes it, and otherwise keeps the browser's default. Timers become a list
 * of pending deletions and the clock a parameter: `Tick(now)` fires every deletion that
 * is due by `now`.
 */
module DesiredFilenames {

  /** Milliseconds until a remembered name is deleted. */
  const ExpiryMs: nat := 60_000

  /** A scheduled `delete desiredFilenames[url]`. */
  datatype Deletion = Deletion(url: string, due: nat)

  datatype Table = Table(names: map<string, string>, pending: seq<Deletion>)

  /** What the listener suggests, and the table afterwards. */
  datatype Suggestion = Suggestion(table: Table, filename: string)

  /** The table when the worker starts. */
  const Empty: Table := Table(map[], [])

  /** Every stored URL still has a deletion scheduled for it. */
  ghost predicate Tracked(t: Table) {
    forall u | u in t.names :: exists d | d in t.pending :: d.url == u
  }

  /** Some deletion of `u` is due by `now`. */
  ghost predicate DueBy(pending: seq<Deletion>, u: string, now: nat) {
    exists d | d in pending :: d.url == u && d.due <= now
  }

  /** Keys other than `u` are bound exactly as before. */
  ghost predicate SameExcept(a: map<string, string>, b: map<string, string>, u: string) {
    forall k | k != u :: (k in a <==> k in b) && (k in a ==> a[k] == b[k])
  }

  function Remember(t: Table, url: string, name: string, now: nat): (r: Table)
    ensures url in r.names && r.names[url] == name
    ensures SameExcept(r.names, t.names, url)
    ensures forall d :: d in r.pending <==> d in t.pending || d == Deletion(url, now + ExpiryMs)
  {
    Table(t.names[url := name], t.pending + [Deletion(url, now + ExpiryMs)])
  }

  /** The listener: a stored non-empty name is used once; anything else yields the default. */
  function Determine(t: Table, url: string, default: string): (r: Suggestion)
    ensures r.table.pending == t.pending
    ensures SameExcept(r.table.names, t.names, url)
    ensures url in r.table.names ==> r.filename == default && url in t.names && r.table.names[url] == t.names[url]
    ensures url in t.names && t.names[url] != [] ==> r.filename == t.names[url] && url !in r.table.names
    ensures !(url in t.names && t.names[url] != []) ==> r == Suggestion(t, default)
  {
    if url in t.names && t.names[url] != [] then
      Suggestion(Table(t.names - {url}, t.pending), t.names[url])
    else
      Suggestion(t, default)
  }

  /** Time reaches `now`: every deletion due by then fires, the rest stay scheduled. */
  function Tick(t: Table, now: nat): (r: Table)
    ensures forall u :: u in r.names <==> u in t.names && !DueBy(t.pending, u, now)
    ensures forall u | u in r.names :: r.names[u] == t.names[u]
    ensures forall d :: d in r.pending <==> d in t.pending && now < d.due
    decreases |t.pending|
  {
    if t.pending == [] then t
    else
      var d := t.pending[0];
      var rest := Tick(Table(t.names, t.pending[1..]), now);
      assert forall e | e in t.pending :: e == d || e in t.pending[1..];
      if d.due <= now then Table(rest.names - {d.url}, rest.pending)
      else Table(rest.names, [d] + rest.pending)
  }

  // ---------------------------------------------------------------------------
  // Every operation keeps each stored URL scheduled for deletion

  lemma EmptyTracked()
    ensures Tracked(Empty)
  {
  }

  lemma RememberTracked(t: Table, url: string, name: string, now: nat)
    requires Tracked(t)
    ensures Tracked(Remember(t, url, name, now))
  {
  }

  lemma DetermineTracked(t: Table, url: string, default: string)
    requires Tracked(t)
    ensures Tracked(Determine(t, url, default).table)
  {
  }

  lemma TickTracked(t: Table, now: nat)
    requires Tracked(t)
    ensures Tracked(Tick(t, now))
  {
    var r := Tick(t, now);
    forall u | u in r.names
      ensures exists d | d in r.pending :: d.url == u
    {
      var d :| d in t.pending && d.url == u;
      assert d in r.pending;
    }
  }

  // ---------------------------------------------------------------------------
  // Consume-once and expiry

  /** A remembered name is handed out by the next lookup of its URL, which removes it. */
  lemma RememberThenDetermine(t: Table, url: string, name: string, now: nat, default: string)
    requires name != []
    ensures Determine(Remember(t, url, name, now), url, default).filename == name
    ensures url !in Determine(Remember(t, url, name, now), url, default).table.names
  {
  }

  /** A second lookup of the same URL gets the browser's default. */
  lemma ConsumedOnce(t: Table, url: string, name: string, now: nat, first: string, second: string)
    requires name != []
    ensures
      var s := Determine(Remember(t, url, name, now), url, first);
      Determine(s.table, url, second).filename == second
  {
    RememberThenDetermine(t, url, name, now, first);
  }

  /** An empty name is falsy: it is never handed out, and it stays until its deletion fires. */
  lemma EmptyNameIgnored(t: Table, url: string, now: nat, default: string)
    ensures Determine(Remember(t, url, [], now), url, default) == Suggestion(Remember(t, url, [], now), default)
  {
  }

  /** Looking up another URL neither uses nor removes the name. */
  lemma OtherUrlUntouched(t: Table, url: string, name: string, now: nat, other: string, default: string)
    requires other != url
    ensures
      var s := Determine(Remember(t, url, name, now), other, default);
      url in s.table.names && s.table.names[url] == name
  {
  }

  /** Before its deletion is due, and with no older deletion of that URL due, a name survives a tick. */
  lemma SurvivesUntilDue(t: Table, url: string, name: string, now: nat, later: nat)
    requires later < now + ExpiryMs
    requires !DueBy(t.pending, url, later)
    ensures
      var r := Tick(Remember(t, url, name, now), later);
      url in r.names && r.names[url] == name
  {
  }

  /** Once its deletion is due, the name is gone. */
  lemma ExpiresWhenDue(t: Table, url: string, name: string, now: nat, later: nat)
    requires now + ExpiryMs <= later
    ensures url !in Tick(Remember(t, url, name, now), later).names
  {
    assert DueBy(Remember(t, url, name, now).pending, url, later);
  }

  /**
   * Re-remembering a URL does not cancel the first timer: the second name is deleted when
   * the first deletion falls due, before its own minute is up.
   */
  lemma StaleTimerDeletesNewName(t: Table, url: string, first: string, second: string, t0: nat, t1: nat)
    requires t0 <= t1
    ensures
      var r := Tick(Remember(Remember(t, url, first, t0), url, second, t1), t0 + ExpiryMs);
      url !in r.names
  {
    var m := Remember(t, url, first, t0);
    var p := Remember(m, url, second, t1).pending;
    assert Deletion(url, t0 + ExpiryMs) in p;
    assert DueBy(p, url, t0 + ExpiryMs);
  }

  // ---------------------------------------------------------------------------
  // Event traces

  datatype Event =
    | RememberEvent(url: string, name: string, now: nat)
    | DetermineEvent(url: string, default: string)
    | TickEvent(now: nat)

  /** Runs events from the left; the result collects what every lookup suggested. */
  function Run(t: Table, events: seq<Event>): (r: (Table, seq<string>))
    ensures |r.1| <= |events|
    decreases |events|
  {
    if events == [] then (t, [])
    else
      match events[0]
      case RememberEvent(u, f, n) =>
        Run(Remember(t, u, f, n), events[1..])
      case DetermineEvent(u, d) =>
        var s := Determine(t, u, d);
        var rest := Run(s.table, events[1..]);
        (rest.0, [s.filename] + rest.1)
      case TickEvent(n) =>
        Run(Tick(t, n), events[1..])
  }

  /** Whatever happens, every stored URL stays scheduled for deletion. */
  lemma {:induction false} RunTracked(t: Table, events: seq<Event>)
    requires Tracked(t)
    ensures Tracked(Run(t, events).0)
    decreases |events|
  {
    if events != [] {
      match events[0]
      case RememberEvent(u, f, n) =>
        RememberTracked(t, u, f, n);
        RunTracked(Remember(t, u, f, n), events[1..]);
      case DetermineEvent(u, d) =>
        DetermineTracked(t, u, d);
        RunTracked(Determine(t, u, d).table, events[1..]);
      case TickEvent(n) =>
        TickTracked(t, n);
        RunTracked(Tick(t, n), events[1..]);
    }
  }

  /** Starting from the empty table, every stored URL is always scheduled for deletion. */
  lemma RunFromEmptyTracked(events: seq<Event>)
    ensures Tracked(Run(Empty, events).0)
  {
    EmptyTracked();
    RunTracked(Empty, events);
  }

  /** Save-as twice from one remembered name: the first download is renamed, the second is not. */
  lemma TwoDownloadsExample()
    ensures Run(Empty, [RememberEvent("u", "p.pdf", 0), DetermineEvent("u", "a"), DetermineEvent("u", "b")]).1
            == ["p.pdf", "b"]
  {
    RememberThenDetermine(Empty, "u", "p.pdf", 0, "a");
    ConsumedOnce(Empty, "u", "p.pdf", 0, "a", "b");
  }
}

=== FILE: entities.dfy ===
/**
 * `decodeEntities`: one global pass of
 * `/&(#\d+|#x[0-9a-fA-F]+|amp|lt|gt|quot|#39);/g`, each match replaced by the
 * character it names. A match is never looked at again, so `&amp;lt;` becomes `&lt;`.
 *
 * `String.fromCharCode` keeps the low 16 bits of the number. A Dafny `char` cannot
 * hold a lone surrogate, so a numeric reference to one makes the result `None`.
 */
module Entities {
  import opened Wrappers
  import opened JsText

  /** A match at the start of the text: how many characters it spans and the UTF-16 code unit it names. */
  datatype Entity = Entity(len: nat, unit: nat)

  /** `s` has the literal `p` at position `i`. */
  predicate HasAt(s: string, i: nat, p: string) {
    i + |p| <= |s| && s[i..i + |p|] == p
  }

  /** `String.fromCharCode(n)` for a non-negative integer `n`: the low 16 bits. */
  function CodeUnit(n: nat): (u: nat)
    ensures u < 0x1_0000
  {
    n % 0x1_0000
  }

  predicate IsSurrogate(u: nat) {
    0xD800 <= u <= 0xDFFF
  }

  /** A numeric reference: `#` and a run of digits closed by `;`, after `skip` characters. */
  function NumericAt(s: string, skip: nat, isDigit: char -> bool, base: nat): (e: Option<Entity>)
    requires skip <= |s| && forall c :: isDigit(c) ==> IsHexDigit(c)
    ensures e.Some? ==> skip + 2 <= e.value.len <= |s| && s[e.value.len - 1] == ';'
  {
    var n := LeadingCount(s[skip..], isDigit);
    if 1 <= n && skip + n < |s| && s[skip + n] == ';' then
      var ds := s[skip..skip + n];
      assert forall i | 0 <= i < n :: ds[i] == s[skip..][i];
      Some(Entity(skip + n + 1, CodeUnit(DigitsValue(ds, base))))
    else None
  }

  /** The regex tried at the start of `s`, alternatives in their written order. */
  function EntityAt(s: string): (e: Option<Entity>)
    ensures e.Some? ==> 4 <= e.value.len <= |s| && s[0] == '&' && s[e.value.len - 1] == ';'
    ensures e.Some? ==> e.value.unit < 0x1_0000
  {
    if |s| < 2 || s[0] != '&' then None
    else if s[1] == '#' && 2 < |s| && IsDigit(s[2]) then NumericAt(s, 2, IsDigit, 10)
    else if HasAt(s, 1, "#x") && 3 < |s| && IsHexDigit(s[3]) then NumericAt(s, 3, IsHexDigit, 16)
    else if HasAt(s, 1, "amp;") then assert s[4] == s[1..5][3]; Some(Entity(5, '&' as nat))
    else if HasAt(s, 1, "lt;") then assert s[3] == s[1..4][2]; Some(Entity(4, '<' as nat))
    else if HasAt(s, 1, "gt;") then assert s[3] == s[1..4][2]; Some(Entity(4, '>' as nat))
    else if HasAt(s, 1, "quot;") then assert s[5] == s[1..6][4]; Some(Entity(6, '"' as nat))
    else None
  }

  /**
   * The decoded text, or `None` when a numeric reference names a surrogate code unit.
   * Text without any match is returned as it is, and the result is never longer.
   */
  function Decode(s: string): (r: Option<string>)
    ensures r.Some? ==> |r.value| <= |s|
    ensures r.Some? && r.value == s <==> NoEntity(s)
    decreases |s|
  {
    if s == [] then Some([])
    else
      NoEntityCons(s);
      match EntityAt(s)
      case Some(e) =>
        if IsSurrogate(e.unit) then None
        else
          var rest := Decode(s[e.len..]);
          if rest.None? then None else Some([e.unit as char] + rest.value)
      case None =>
        var rest := Decode(s[1..]);
        if rest.None? then None else Some([s[0]] + rest.value)
  }

  /** No position of `s` starts a match. */
  predicate NoEntity(s: string) {
    forall i | 0 <= i < |s| :: EntityAt(s[i..]).None?
  }

  lemma NoEntityCons(s: string)
    requires s != []
    ensures NoEntity(s) <==> EntityAt(s).None? && NoEntity(s[1..])
  {
    assert s[0..] == s;
    assert forall i | 1 <= i < |s| :: s[i..] == s[1..][i - 1..];
  }

  /** Text without `&` is left as it is. */
  lemma {:induction false} NoAmpersandUnchanged(s: string)
    requires NoneOf(s, (c: char) => c == '&')
    ensures NoEntity(s) && Decode(s) == Some(s)
    decreases |s|
  {
    if s != [] {
      assert !(s[0] == '&');
      NoAmpersandUnchanged(s[1..]);
      NoEntityCons(s);
    }
  }

  /** Only a numeric reference can name a surrogate: text without `#` always decodes. */
  lemma {:induction false} NoHashDecodes(s: string)
    requires NoneOf(s, (c: char) => c == '#')
    ensures Decode(s).Some?
    decreases |s|
  {
    if s != [] {
      match EntityAt(s)
      case Some(e) =>
        assert !(s[1] == '#');
        assert e.unit in {'&' as nat, '<' as nat, '>' as nat, '"' as nat};
        NoHashDecodes(s[e.len..]);
      case None =>
        NoHashDecodes(s[1..]);
    }
  }

  /** A match is replaced and scanning resumes after it. */
  lemma DecodeAfterEntity(p: string, t: string, e: Entity)
    requires EntityAt(p + t) == Some(e) && e.len == |p| && !IsSurrogate(e.unit)
    ensures Decode(p + t) == (if Decode(t).Some? then Some([e.unit as char] + Decode(t).value) else None)
  {
    assert (p + t)[e.len..] == t;
  }

  /** A character that starts no match is copied and scanning moves on by one. */
  lemma DecodeAfterPlain(c: char, t: string)
    requires c != '&'
    ensures Decode([c] + t) == (if Decode(t).Some? then Some([c] + Decode(t).value) else None)
  {
    assert ([c] + t)[1..] == t;
  }

  // ---------------------------------------------------------------------------
  // The inverse: escaping the five characters that have a named form

  function EncodeChar(c: char): (r: string)
    ensures r == [c] <==> c !in "&<>\"'"
  {
    if c == '&' then "&amp;"
    else if c == '<' then "&lt;"
    else if c == '>' then "&gt;"
    else if c == '"' then "&quot;"
    else if c == '\'' then "&#39;"
    else [c]
  }

  /** The text with `&`, `<`, `>`, `"` and `'` written as entities. */
  function Encode(s: string): (r: string)
    ensures |s| <= |r|
    ensures NoneOf(s, (c: char) => c in "&<>\"'") ==> r == s
  {
    if s == [] then [] else EncodeChar(s[0]) + Encode(s[1..])
  }

  /** Decoding undoes encoding. */
  lemma {:induction false} DecodeEncode(s: string)
    ensures Decode(Encode(s)) == Some(s)
    decreases |s|
  {
    if s != [] {
      DecodeEncode(s[1..]);
      EncodedCharStep(s[0], Encode(s[1..]), s[1..]);
      assert [s[0]] + s[1..] == s;
    }
  }

  /** One encoded character decodes back to itself, and decoding carries on after it. */
  lemma EncodedCharStep(c: char, t: string, rest: string)
    requires Decode(t) == Some(rest)
    ensures Decode(EncodeChar(c) + t) == Some([c] + rest)
  {
    if c in "&<>\"'" {
      EncodedCharAt(c, t);
      DecodeAfterEntity(EncodeChar(c), t, Entity(|EncodeChar(c)|, c as nat));
    } else {
      DecodeAfterPlain(c, t);
    }
  }

  /** An escaped character is matched whole and names that character. */
  lemma EncodedCharAt(c: char, t: string)
    requires c in "&<>\"'"
    ensures EntityAt(EncodeChar(c) + t) == Some(Entity(|EncodeChar(c)|, c as nat))
  {
    if c == '&' {
      NamedAt("amp;", t);
      assert "&amp;" == "&" + "amp;";
    } else if c == '<' {
      NamedAt("lt;", t);
      assert "&lt;" == "&" + "lt;";
    } else if c == '>' {
      NamedAt("gt;", t);
      assert "&gt;" == "&" + "gt;";
    } else if c == '"' {
      NamedAt("quot;", t);
      assert "&quot;" == "&" + "quot;";
    } else {
      var s := "&#39;" + t;
      assert s[..5] == "&#39;";
      assert s[2..4] == "39";
      DecimalRefAt(s, 2);
      ThirtyNine();
    }
  }

  /** The character each of the four names stands for. */
  function NamedUnit(name: string): nat {
    if name == "amp;" then '&' as nat
    else if name == "lt;" then '<' as nat
    else if name == "gt;" then '>' as nat
    else '"' as nat
  }

  lemma NamedAt(name: string, t: string)
    requires name == "amp;" || name == "lt;" || name == "gt;" || name == "quot;"
    ensures EntityAt("&" + name + t) == Some(Entity(1 + |name|, NamedUnit(name)))
  {
    var s := "&" + name + t;
    assert s[1..1 + |name|] == name;
    assert s[1] == name[0];
    if name != "amp;" {
      NotHasAt(s, 1, "amp;");
    }
    if name == "gt;" || name == "quot;" {
      NotHasAt(s, 1, "lt;");
    }
    if name == "quot;" {
      NotHasAt(s, 1, "gt;");
    }
  }

  lemma NotHasAt(s: string, i: nat, p: string)
    requires p != [] && i < |s| && s[i] != p[0]
    ensures !HasAt(s, i, p)
  {
    if i + |p| <= |s| {
      assert s[i..i + |p|][0] == s[i];
    }
  }

  /** `&#`, `n` decimal digits and `;` name the low 16 bits of the decimal value. */
  lemma DecimalRefAt(s: string, n: nat)
    requires 1 <= n && 2 + n < |s| && s[0] == '&' && s[1] == '#'
    requires AllOf(s[2..2 + n], IsDigit) && s[2 + n] == ';'
    ensures EntityAt(s) == Some(Entity(n + 3, CodeUnit(DigitsValue(s[2..2 + n], 10))))
  {
    assert s[2] == s[2..2 + n][0];
    DigitRun(s, 2, n, IsDigit, 10);
  }

  /** `&#x`, `n` hexadecimal digits and `;` name the low 16 bits of the hexadecimal value. */
  lemma HexRefAt(s: string, n: nat)
    requires 1 <= n && 3 + n < |s| && s[0] == '&' && s[1] == '#' && s[2] == 'x'
    requires AllOf(s[3..3 + n], IsHexDigit) && s[3 + n] == ';'
    ensures EntityAt(s) == Some(Entity(n + 4, CodeUnit(DigitsValue(s[3..3 + n], 16))))
  {
    assert s[3] == s[3..3 + n][0];
    assert !IsDigit(s[2]);
    assert s[1..3] == "#x";
    DigitRun(s, 3, n, IsHexDigit, 16);
  }

  /** A run of `n` digits closed by `;` is read whole. */
  lemma DigitRun(s: string, skip: nat, n: nat, isDigit: char -> bool, base: nat)
    requires forall c :: isDigit(c) ==> IsHexDigit(c)
    requires 1 <= n && skip + n < |s| && AllOf(s[skip..skip + n], isDigit) && s[skip + n] == ';' && !isDigit(';')
    ensures NumericAt(s, skip, isDigit, base) == Some(Entity(skip + n + 1, CodeUnit(DigitsValue(s[skip..skip + n], base))))
  {
    var w, q := s[skip..skip + n], s[skip + n..];
    assert s[skip..] == w + q;
    LeadingCountAll(w, q, isDigit);
  }

  lemma ThirtyNine()
    ensures DigitsValue("39", 10) == 39
  {
    assert "39"[..1] == "3" && "3"[..0] == [];
  }

  // ---------------------------------------------------------------------------
  // Examples

  /** One pass only: `&amp;lt;` becomes `&lt;`, not `<`. */
  lemma OnePassExample()
    ensures Decode("&amp;" + "lt;") == Some("&lt;")
  {
    NamedAt("amp;", "lt;");
    NoAmpersandUnchanged("lt;");
    assert "&amp;" == "&" + "amp;";
    DecodeAfterEntity("&amp;", "lt;", Entity(5, '&' as nat));
    assert [('&' as nat) as char] + "lt;" == "&lt;";
  }

  /** An `&` that is not followed by `#` or one of the four names starts no match. */
  lemma AmpersandNotEntity(s: string)
    requires 2 <= |s| && s[0] == '&' && s[1] != '#' && s[1] !in "algq"
    ensures EntityAt(s).None?
  {
    NotHasAt(s, 1, "#x");
    NotHasAt(s, 1, "amp;");
    NotHasAt(s, 1, "lt;");
    NotHasAt(s, 1, "gt;");
    NotHasAt(s, 1, "quot;");
  }

  /** `&nbsp;` is not one of the recognised names. */
  lemma NbspUnchanged()
    ensures Decode("&" + "nbsp;") == Some("&nbsp;")
  {
    var s := "&" + "nbsp;";
    AmpersandNotEntity(s);
    assert s[1..] == "nbsp;";
    NoAmpersandUnchanged("nbsp;");
    DecodeAfterPlainAmp(s);
    assert s == "&nbsp;";
  }

  /** `&#` followed by neither a digit nor a lower-case `x` starts no match. */
  lemma HashNotEntity(s: string)
    requires 3 <= |s| && s[0] == '&' && s[1] == '#' && !IsDigit(s[2]) && s[2] != 'x'
    ensures EntityAt(s).None?
  {
    assert s[1..3][1] == s[2];
    NotHasAt(s, 1, "amp;");
    NotHasAt(s, 1, "lt;");
    NotHasAt(s, 1, "gt;");
    NotHasAt(s, 1, "quot;");
  }

  /** The hexadecimal form needs a lower-case `x`: `&#X41;` is left alone. */
  lemma UpperHexUnchanged()
    ensures Decode("&#" + "X41;") == Some("&#X41;")
  {
    var s := "&#" + "X41;";
    assert s[1..] == "#X41;" && s[2] == 'X';
    HashNotEntity(s);
    NoAmpersandUnchanged("#X41;");
    DecodeAfterPlainAmp(s);
    assert s == "&#X41;";
  }

  /** An `&` that starts no match is copied like any other character. */
  lemma DecodeAfterPlainAmp(s: string)
    requires s != [] && EntityAt(s).None? && NoEntity(s[1..])
    ensures Decode(s) == Some(s)
  {
    NoEntityCons(s);
  }

  /** `&#x1F600;` names more than 16 bits; `String.fromCharCode` keeps `F600`. */
  lemma HexTruncatedExample()
    ensures Decode("&#x1F600;") == Some("\U{F600}")
  {
    var s := "&#x1F600;";
    HexValueSteps();
    assert s[3..8] == "1F600";
    HexRefAt(s, 5);
    assert s + "" == s;
    DecodeAfterEntity(s, "", Entity(9, 0xF600));
    assert [0xF600 as char] + [] == "\U{F600}";
  }

  lemma HexValueSteps()
    ensures AllOf("1F600", IsHexDigit)
    ensures DigitsValue("1F600", 16) == 0x1F600
  {
    assert "1"[..0] == [];
    assert "1F"[..1] == "1";
    assert "1F6"[..2] == "1F";
    assert "1F60"[..3] == "1F6";
    assert "1F600"[..4] == "1F60";
  }
}

=== FILE: filenames.dfy ===
/**
 * The three filename builders of the extension (`buildPdfFilename`,
 * `buildReferencesFilename`, `buildReferencesJsonFilename`).  They share one
 * pipeline and differ only in the suffix, the extension kept on truncation, and
 * the regex used to collapse dots; `BuildFilename` is that pipeline.
 */
module Filenames {
  import opened JsText

  datatype FileKind = Pdf | ReferencesCsv | ReferencesJson

  /** What is appended to `"{id} {title}"`. */
  function Suffix(kind: FileKind): string {
    match kind
    case Pdf => ".pdf"
    case ReferencesCsv => " - references.csv"
    case ReferencesJson => " - references.json"
  }

  /** The extension re-added after truncation (note: not the whole suffix). */
  function Extension(kind: FileKind): string {
    match kind
    case Pdf => ".pdf"
    case ReferencesCsv => ".csv"
    case ReferencesJson => ".json"
  }

  const MaxLength: nat := 220

  /** `[<>:"/\\|?*\x00-\x1f]`: characters Windows refuses in a filename. */
  predicate IsIllegal(c: char) {
    c == '<' || c == '>' || c == ':' || c == '"' || c == '/' || c == '\\'
    || c == '|' || c == '?' || c == '*' || c < ' '
  }

  predicate IsDot(c: char) {
    c == '.'
  }

  /** `[\s.]` */
  predicate IsSpaceOrDot(c: char) {
    IsWhitespace(c) || c == '.'
  }

  predicate NoDoubleDot(s: string) {
    forall i, j | 0 <= i < |s| && j == i + 1 && j < |s| :: !(s[i] == '.' && s[j] == '.')
  }

  predicate NoColon(s: string) {
    forall i | 0 <= i < |s| :: s[i] != ':'
  }

  // ---------------------------------------------------------------------------
  // Title clean-up

  /** `s.replace(/:\s*\/g, '. ')`: a colon and the whitespace after it become ". ". */
  function ReplaceColons(s: string): (r: string)
    ensures NoColon(r)
    ensures NoColon(s) ==> r == s
    decreases |s|
  {
    if s == [] then []
    else if s[0] == ':' then
      var n := LeadingCount(s[1..], IsWhitespace);
      ". " + ReplaceColons(s[1 + n..])
    else [s[0]] + ReplaceColons(s[1..])
  }

  /** `s.replace(/[<>:"/\\|?*\x00-\x1f]/g, '')` */
  function StripIllegal(s: string): (r: string)
    ensures NoneOf(r, IsIllegal)
    ensures forall c :: c in r <==> c in s && !IsIllegal(c)
    ensures NoneOf(s, IsIllegal) ==> r == s
  {
    if s == [] then []
    else if IsIllegal(s[0]) then StripIllegal(s[1..])
    else [s[0]] + StripIllegal(s[1..])
  }

  /** Stripping works character by character: it distributes over concatenation. */
  lemma {:induction false} StripIllegalAppend(a: string, b: string)
    ensures StripIllegal(a + b) == StripIllegal(a) + StripIllegal(b)
    decreases |a|
  {
    if a == [] {
      assert a + b == b;
    } else {
      assert (a + b)[0] == a[0];
      assert (a + b)[1..] == a[1..] + b;
      StripIllegalAppend(a[1..], b);
    }
  }

  /** A single character is dropped exactly when it is illegal. */
  lemma StripIllegalChar(c: char)
    ensures StripIllegal([c]) == if IsIllegal(c) then [] else [c]
  {
    assert [c][1..] == [];
  }

  /** Whatever holds of every input character holds of every kept one. */
  lemma {:induction false} StripIllegalKeepsAll(s: string, p: char -> bool)
    requires AllOf(s, p)
    ensures AllOf(StripIllegal(s), p)
    decreases |s|
  {
    if s != [] {
      StripIllegalKeepsAll(s[1..], p);
    }
  }

  /** The title part of every built filename (steps 1-3 of the pipeline). */
  function CleanTitle(raw: string): (t: string)
    ensures NoneOf(t, IsIllegal)
    ensures SingleSpaced(t)
    ensures Trimmed(t)
  {
    var collapsed := CollapseWhitespace(StripIllegal(ReplaceColons(raw)));
    CollapseKeepsLegal(StripIllegal(ReplaceColons(raw)));
    TrimKeeps(collapsed);
    Trim(collapsed)
  }

  /** Trimming only removes characters from the ends. */
  lemma TrimKeeps(s: string)
    ensures NoneOf(s, IsIllegal) ==> NoneOf(Trim(s), IsIllegal)
    ensures SingleSpaced(s) ==> SingleSpaced(Trim(s))
  {
    var a := LeadingCount(s, IsWhitespace);
    var b := |s| - TrailingCount(s[a..], IsWhitespace);
    var t := Trim(s);
    assert t == s[a..b];
    assert forall i | 0 <= i < |t| :: t[i] == s[a + i];
  }

  lemma {:induction false} CollapseKeepsLegal(s: string)
    requires NoneOf(s, IsIllegal)
    ensures NoneOf(CollapseWhitespace(s), IsIllegal)
    decreases |s|
  {
    if s == [] {
    } else if IsWhitespace(s[0]) {
      var n := LeadingCount(s, IsWhitespace);
      CollapseKeepsLegal(s[n..]);
    } else {
      CollapseKeepsLegal(s[1..]);
    }
  }

  /** `${paperId} ${t}${suffix}`, with the id standing in for an empty title. */
  function ComposeName(kind: FileKind, id: string, t: string): string {
    NameStem(id, t) + Suffix(kind)
  }

  function NameStem(id: string, t: string): string {
    id + " " + (if t == [] then id else t)
  }

  // ---------------------------------------------------------------------------
  // Dots

  /** `name.replace(/\.+/g, '.')` (the references builders). */
  function CollapseDotRuns(s: string): (r: string)
    decreases |s|
  {
    if s == [] then [] else [s[0]] + CollapseDotRuns(s[RunLength(s)..])
  }

  /** The collapse keeps the first character (a dot run starts with a dot and becomes one). */
  lemma CollapseKeepsFirst(s: string)
    requires s != []
    ensures CollapseDotRuns(s) != [] && CollapseDotRuns(s)[0] == s[0]
  {
  }

  /** How much one step of the `\.+` scan consumes: a maximal run of dots, or one other character. */
  function RunLength(s: string): (n: nat)
    requires s != []
    ensures 1 <= n <= |s|
    ensures n < |s| && s[0] == '.' ==> s[n] != '.'
  {
    if s[0] == '.' then LeadingCount(s, IsDot) else 1
  }

  /** After the collapse no two dots are adjacent. */
  lemma {:induction false} CollapseLeavesNoDoubleDot(s: string)
    ensures NoDoubleDot(CollapseDotRuns(s))
    decreases |s|
  {
    if s != [] {
      var n := RunLength(s);
      CollapseLeavesNoDoubleDot(s[n..]);
      var rest := CollapseDotRuns(s[n..]);
      assert CollapseDotRuns(s) == [s[0]] + rest;
      if n < |s| {
        CollapseKeepsFirst(s[n..]);
      }
    }
  }

  /** A single dot is matched by `\.+` as a run of length one. */
  lemma SingleDotRun(s: string)
    requires |s| >= 1 && s[0] == '.' && (|s| == 1 || s[1] != '.')
    ensures LeadingCount(s, IsDot) == 1
  {
    assert s[1..] == [] || !IsDot(s[1..][0]);
  }

  /** Collapsing changes nothing when there is no run of two dots. */
  lemma {:induction false} CollapseKeepsSingleDots(s: string)
    requires NoDoubleDot(s)
    ensures CollapseDotRuns(s) == s
    decreases |s|
  {
    if s != [] {
      if s[0] == '.' {
        SingleDotRun(s);
      }
      assert RunLength(s) == 1;
      CollapseKeepsSingleDots(s[1..]);
    }
  }

  /** A run of dots becomes one dot, so the last character is kept. */
  lemma {:induction false} CollapseKeepsLast(s: string)
    requires s != []
    ensures var r := CollapseDotRuns(s); r[|r| - 1] == s[|s| - 1]
    decreases |s|
  {
    var n := RunLength(s);
    if n < |s| {
      CollapseKeepsLast(s[n..]);
      CollapseKeepsFirst(s[n..]);
    }
  }

  /** Every character of the collapsed name comes from the original. */
  lemma {:induction false} CollapseKeepsNoneOf(s: string, p: char -> bool)
    requires NoneOf(s, p) && !p('.')
    ensures NoneOf(CollapseDotRuns(s), p)
    decreases |s|
  {
    if s != [] {
      CollapseKeepsNoneOf(s[RunLength(s)..], p);
    }
  }

  /** Dot collapsing cannot bring two spaces together. */
  lemma {:induction false} CollapseKeepsSingleSpaced(s: string)
    requires SingleSpaced(s)
    ensures SingleSpaced(CollapseDotRuns(s))
    decreases |s|
  {
    if s != [] {
      var n := RunLength(s);
      CollapseKeepsSingleSpaced(s[n..]);
      if n < |s| {
        CollapseKeepsFirst(s[n..]);
      }
    }
  }

  /** `name.replace(/\.\.+/g, '.')` (the PDF builder): only runs of two or more are matched. */
  function CollapseRepeatedDots(s: string): (r: string)
    decreases |s|
  {
    if s == [] then []
    else if |s| >= 2 && s[0] == '.' && s[1] == '.' then
      var n := LeadingCount(s, IsDot);
      assert n >= 2;
      "." + CollapseRepeatedDots(s[n..])
    else [s[0]] + CollapseRepeatedDots(s[1..])
  }

  /** The two dot regexes of the builders have the same effect. */
  lemma {:induction false} DotCollapsesAgree(s: string)
    ensures CollapseRepeatedDots(s) == CollapseDotRuns(s)
    decreases |s|
  {
    if s == [] {
    } else if |s| >= 2 && s[0] == '.' && s[1] == '.' {
      DotCollapsesAgree(s[LeadingCount(s, IsDot)..]);
    } else if s[0] == '.' {
      SingleDotRun(s);
      DotCollapsesAgree(s[1..]);
    } else {
      DotCollapsesAgree(s[1..]);
    }
  }

  // ---------------------------------------------------------------------------
  // Trailing clean-up and truncation

  /** `s.replace(/[\s.]+$/g, rep)`: the maximal trailing run of spaces and dots becomes `rep`. */
  function ReplaceTrailingRun(s: string, rep: string): (r: string)
    ensures exists k | 0 <= k <= |s| ::
      && AllOf(s[k..], IsSpaceOrDot) && (k == 0 || !IsSpaceOrDot(s[k - 1]))
      && r == (if k == |s| then s else s[..k] + rep)
  {
    var n := TrailingCount(s, IsSpaceOrDot);
    assert n == 0 ==> s[..|s| - n] == s;
    if n == 0 then s else s[..|s| - n] + rep
  }

  /**
   * `r` is `name` cut to `220 - |ext|` characters, minus the trailing run of
   * spaces and dots at the cut, plus `ext`.
   */
  predicate CutAndStripped(r: string, name: string, ext: string) {
    && |ext| <= MaxLength <= |name|
    && exists k | 0 <= k <= MaxLength - |ext| ::
      && r == name[..k] + ext
      && AllOf(name[k..MaxLength - |ext|], IsSpaceOrDot)
      && (k == 0 || !IsSpaceOrDot(name[k - 1]))
  }

  /** The `name.length > 220` branch: cut, strip trailing spaces and dots, re-add `ext`. */
  function Cap(name: string, ext: string): (r: string)
    requires |ext| <= MaxLength
    ensures |r| <= MaxLength
    ensures |name| <= MaxLength ==> r == name
    ensures |name| > MaxLength ==> EndsWith(r, ext)
    ensures |name| > MaxLength ==> CutAndStripped(r, name, ext)
  {
    if |name| > MaxLength then
      var cut := name[..MaxLength - |ext|];
      var k := |cut| - TrailingCount(cut, IsSpaceOrDot);
      assert ReplaceTrailingRun(cut, "") == cut[..k] == name[..k];
      assert cut[k..] == name[k..MaxLength - |ext|];
      var r := ReplaceTrailingRun(cut, "") + ext;
      assert r[|r| - |ext|..] == ext;
      r
    else name
  }

  // ---------------------------------------------------------------------------
  // The builders

  /** The composed name after dot collapsing, before the length limit. */
  function DotCollapsedName(kind: FileKind, id: string, raw: string): string {
    CollapseDotRuns(ComposeName(kind, id, CleanTitle(raw)))
  }

  /** The shared pipeline of the three builders. */
  function BuildFilename(kind: FileKind, id: string, raw: string): (r: string)
    ensures EndsWith(r, Extension(kind))
    ensures |r| <= MaxLength
    ensures var n := DotCollapsedName(kind, id, raw);
      && (|n| <= MaxLength ==> r == n && EndsWith(r, Suffix(kind)))
      && (|n| > MaxLength ==> CutAndStripped(r, n, Extension(kind)))
  {
    var n := TidiedName(kind, id, raw);
    var ext := Extension(kind);
    assert |ext| <= 5;
    Cap(n, ext)
  }

  /**
   * Steps 1-6: clean the title, compose, collapse dots (with the regex the kind
   * uses) and replace a trailing run of spaces and dots by the extension.
   */
  function TidiedName(kind: FileKind, id: string, raw: string): (n: string)
    ensures n == DotCollapsedName(kind, id, raw)
    ensures EndsWith(n, Suffix(kind)) && EndsWith(n, Extension(kind))
  {
    var composed := ComposeName(kind, id, CleanTitle(raw));
    var collapsed := if kind == Pdf then CollapseRepeatedDots(composed) else CollapseDotRuns(composed);
    BuildFilenameSteps(kind, id, raw);
    ReplaceTrailingRun(collapsed, Extension(kind))
  }

  /** What `BuildFilename` needs: both dot regexes agree and the trailing replace is inert. */
  lemma BuildFilenameSteps(kind: FileKind, id: string, raw: string)
    ensures var composed := ComposeName(kind, id, CleanTitle(raw));
      var collapsed := if kind == Pdf then CollapseRepeatedDots(composed) else CollapseDotRuns(composed);
      && collapsed == DotCollapsedName(kind, id, raw)
      && ReplaceTrailingRun(collapsed, Extension(kind)) == collapsed
      && EndsWith(collapsed, Suffix(kind))
      && EndsWith(collapsed, Extension(kind))
  {
    var stem := NameStem(id, CleanTitle(raw));
    DotCollapsesAgree(stem + Suffix(kind));
    CollapsedNameEnds(kind, stem);
  }

  /** After collapsing, `stem + suffix` still ends with the suffix, and so with the extension. */
  lemma CollapsedNameEnds(kind: FileKind, stem: string)
    ensures var n := CollapseDotRuns(stem + Suffix(kind));
      && EndsWith(n, Suffix(kind))
      && EndsWith(n, Extension(kind))
      && ReplaceTrailingRun(n, Extension(kind)) == n
  {
    SuffixFacts(kind);
    TailKeepsEnds(stem, Suffix(kind), Extension(kind));
  }

  lemma TailKeepsEnds(stem: string, sfx: string, ext: string)
    requires |sfx| >= 2 && NoDoubleDot(sfx) && sfx[1] != '.'
    requires !IsSpaceOrDot(sfx[|sfx| - 1]) && EndsWith(sfx, ext)
    ensures var n := CollapseDotRuns(stem + sfx);
      && EndsWith(n, sfx)
      && EndsWith(n, ext)
      && ReplaceTrailingRun(n, ext) == n
  {
    TailSurvivesCollapse(stem, sfx);
    var n := CollapseDotRuns(stem + sfx);
    EndsWithTrans(n, sfx, ext);
    assert n[|n| - 1] == sfx[|sfx| - 1];
    TrailingRunInert(n, ext);
  }

  lemma EndsWithTrans(a: string, b: string, c: string)
    requires EndsWith(a, b) && EndsWith(b, c)
    ensures EndsWith(a, c)
  {
    assert a[|a| - |c|..] == a[|a| - |b|..][|b| - |c|..];
  }

  lemma TrailingRunInert(n: string, rep: string)
    requires n != [] && !IsSpaceOrDot(n[|n| - 1])
    ensures ReplaceTrailingRun(n, rep) == n
  {
    assert TrailingCount(n, IsSpaceOrDot) == 0;
  }

  /** `buildPdfFilename` */
  function BuildPdfFilename(id: string, raw: string): (r: string)
    ensures EndsWith(r, ".pdf") && |r| <= MaxLength
  {
    BuildFilename(Pdf, id, raw)
  }

  /** `buildReferencesFilename` */
  function BuildReferencesFilename(id: string, raw: string): (r: string)
    ensures EndsWith(r, ".csv") && |r| <= MaxLength
    ensures |DotCollapsedName(ReferencesCsv, id, raw)| <= MaxLength ==> EndsWith(r, " - references.csv")
  {
    BuildFilename(ReferencesCsv, id, raw)
  }

  /** `buildReferencesJsonFilename` */
  function BuildReferencesJsonFilename(id: string, raw: string): (r: string)
    ensures EndsWith(r, ".json") && |r| <= MaxLength
    ensures |DotCollapsedName(ReferencesJson, id, raw)| <= MaxLength ==> EndsWith(r, " - references.json")
  {
    BuildFilename(ReferencesJson, id, raw)
  }

  // ---------------------------------------------------------------------------
  // Lemmas


  /** A dot run cannot cross into `b` when `b` starts with something else. */
  lemma {:induction false} CollapseSplit(a: string, b: string)
    requires b != [] && b[0] != '.'
    ensures CollapseDotRuns(a + b) == CollapseDotRuns(a) + CollapseDotRuns(b)
    decreases |a|
  {
    if a == [] {
      assert a + b == b;
    } else {
      var n := RunLength(a);
      RunLengthConcat(a, b);
      CollapseSplit(a[n..], b);
      calc {
        CollapseDotRuns(a + b);
        [a[0]] + CollapseDotRuns(a[n..] + b);
        [a[0]] + (CollapseDotRuns(a[n..]) + CollapseDotRuns(b));
        ([a[0]] + CollapseDotRuns(a[n..])) + CollapseDotRuns(b);
      }
    }
  }

  lemma RunLengthConcat(a: string, b: string)
    requires a != [] && b != [] && b[0] != '.'
    ensures (a + b)[0] == a[0]
    ensures RunLength(a + b) == RunLength(a)
    ensures (a + b)[RunLength(a)..] == a[RunLength(a)..] + b
  {
    if a[0] == '.' {
      LeadingCountStopsAt(a, b, IsDot);
    }
  }

  /** The facts about the three literal suffixes the proofs use. */
  lemma SuffixFacts(kind: FileKind)
    ensures var s := Suffix(kind);
      && |s| >= 4 && NoDoubleDot(s) && s[1] != '.'
      && !IsSpaceOrDot(s[|s| - 1])
      && EndsWith(s, Extension(kind))
  {
    match kind
    case Pdf =>
    case ReferencesCsv =>
      assert " - references.csv"[13..] == ".csv";
    case ReferencesJson =>
      assert " - references.json"[13..] == ".json";
  }

  lemma SuffixSafe(kind: FileKind)
    ensures NoneOf(Suffix(kind), IsIllegal) && SingleSpaced(Suffix(kind))
  {
    match kind
    case Pdf =>
      LiteralSafe(".pdf");
    case ReferencesCsv =>
      LiteralSafe(" - references.csv");
    case ReferencesJson =>
      LiteralSafe(" - references.json");
  }

  /** A string of letters, dots, dashes and lone spaces is safe. */
  lemma LiteralSafe(s: string)
    requires forall i | 0 <= i < |s| :: s[i] == ' ' || s[i] == '.' || s[i] == '-' || 'a' <= s[i] <= 'z' || 'A' <= s[i] <= 'Z'
    requires forall i, j | 0 <= i < |s| && j == i + 1 && j < |s| :: !(s[i] == ' ' && s[j] == ' ')
    ensures NoneOf(s, IsIllegal) && SingleSpaced(s)
  {
  }

  /** A tail with no dot run, whose second character is not a dot, survives collapsing. */
  lemma TailSurvivesCollapse(a: string, b: string)
    requires |b| >= 2 && NoDoubleDot(b) && b[1] != '.'
    ensures EndsWith(CollapseDotRuns(a + b), b)
  {
    if b[0] == '.' {
      var head := DotTailSurvives(a, b);
      EndsWithConcat(head, b);
    } else {
      NonDotTailSurvives(a, b);
      EndsWithConcat(CollapseDotRuns(a), b);
    }
  }

  lemma EndsWithConcat(x: string, b: string)
    ensures EndsWith(x + b, b)
  {
    assert (x + b)[|x|..] == b;
  }

  lemma NonDotTailSurvives(a: string, b: string)
    requires b != [] && b[0] != '.' && NoDoubleDot(b)
    ensures CollapseDotRuns(a + b) == CollapseDotRuns(a) + b
  {
    CollapseSplit(a, b);
    CollapseKeepsSingleDots(b);
  }

  lemma DotTailSurvives(a: string, b: string) returns (head: string)
    requires |b| >= 2 && b[0] == '.' && b[1] != '.' && NoDoubleDot(b)
    ensures CollapseDotRuns(a + b) == head + b
  {
    var rest := b[1..];
    var a' := a + ".";
    assert NoDoubleDot(rest);
    assert a + b == a' + rest;
    NonDotTailSurvives(a', rest);
    var c := CollapseDotRuns(a');
    CollapseKeepsLast(a');
    head := c[..|c| - 1];
    calc {
      CollapseDotRuns(a + b);
      c + rest;
      { assert c == head + "."; }
      (head + ".") + rest;
      { assert "." + rest == b; }
      head + b;
    }
  }

  /**
   * The `.replace(/[\s.]+$/g, ext)` step never changes anything: after the dot
   * collapse the name still ends with the suffix, whose last character is a letter.
   */
  lemma TrailingReplaceNeverFires(kind: FileKind, id: string, raw: string)
    ensures var n := DotCollapsedName(kind, id, raw);
      ReplaceTrailingRun(n, Extension(kind)) == n
  {
    CollapsedNameEnds(kind, NameStem(id, CleanTitle(raw)));
  }

  /** `": X"` becomes `". X"`, and the text before the first colon is kept. */
  lemma {:induction false} ColonBecomesPeriod(p: string, w: string, q: string)
    requires NoColon(p)
    requires AllOf(w, IsWhitespace)
    requires q == [] || !IsWhitespace(q[0])
    ensures ReplaceColons(p + ":" + w + q) == p + ". " + ReplaceColons(q)
    decreases |p|
  {
    var s := p + ":" + w + q;
    if p == [] {
      assert s[1..] == w + q;
      LeadingCountAll(w, q, IsWhitespace);
      assert s[1 + |w|..] == q;
    } else {
      assert s[1..] == p[1..] + ":" + w + q;
      ColonBecomesPeriod(p[1..], w, q);
    }
  }


  // ---------------------------------------------------------------------------
  // What a built filename looks like

  lemma ExtensionFacts(kind: FileKind)
    ensures var e := Extension(kind);
      && 4 <= |e| <= 5 && e[0] == '.'
      && NoDoubleDot(e) && NoneOf(e, IsIllegal) && NoneOf(e, IsWhitespace)
  {
  }

  lemma ConcatNoDoubleDot(a: string, b: string)
    requires NoDoubleDot(a) && NoDoubleDot(b)
    requires a == [] || b == [] || !(a[|a| - 1] == '.' && b[0] == '.')
    ensures NoDoubleDot(a + b)
  {
    var s := a + b;
    forall i, j | 0 <= i < |s| && j == i + 1 && j < |s|
      ensures !(s[i] == '.' && s[j] == '.')
    {
      if j < |a| {
        assert s[i] == a[i] && s[j] == a[j];
      } else if i >= |a| {
        assert s[i] == b[i - |a|] && s[j] == b[j - |a|];
      }
    }
  }

  lemma PrefixNoDoubleDot(s: string, k: nat)
    requires k <= |s| && NoDoubleDot(s)
    ensures NoDoubleDot(s[..k])
  {
    var t := s[..k];
    assert forall i | 0 <= i < k :: t[i] == s[i];
  }

  /**
   * With an id free of illegal characters and whitespace, the whole built name
   * has no illegal character (so no colon), no two dots in a row, and single
   * spaces only.  The id is not sanitised, hence the precondition.
   */
  lemma BuiltNameIsSafe(kind: FileKind, id: string, raw: string)
    requires id != [] && NoneOf(id, IsIllegal) && NoneOf(id, IsWhitespace)
    ensures var r := BuildFilename(kind, id, raw);
      NoneOf(r, IsIllegal) && NoDoubleDot(r) && SingleSpaced(r)
  {
    var n := DotCollapsedName(kind, id, raw);
    StemIsSafe(kind, id, CleanTitle(raw));
    var r := BuildFilename(kind, id, raw);
    if |n| > MaxLength {
      ExtensionFacts(kind);
      CutIsSafe(r, n, Extension(kind));
    }
  }

  /** Cutting a safe name and re-appending a safe extension keeps it safe. */
  lemma CutIsSafe(r: string, n: string, ext: string)
    requires CutAndStripped(r, n, ext)
    requires NoneOf(n, IsIllegal) && NoDoubleDot(n) && SingleSpaced(n)
    requires ext != [] && NoneOf(ext, IsIllegal) && NoneOf(ext, IsWhitespace) && NoDoubleDot(ext)
    ensures NoneOf(r, IsIllegal) && NoDoubleDot(r) && SingleSpaced(r)
  {
    var k :| 0 <= k <= MaxLength - |ext| && r == n[..k] + ext
      && AllOf(n[k..MaxLength - |ext|], IsSpaceOrDot) && (k == 0 || !IsSpaceOrDot(n[k - 1]));
    PrefixKeeps(n, k, IsIllegal);
    PrefixNoDoubleDot(n, k);
    ConcatNoneOf(n[..k], ext, IsIllegal);
    ConcatNoDoubleDot(n[..k], ext);
    assert SingleSpaced(ext);
    ConcatSingleSpaced(n[..k], ext);
  }

  /** The composed and collapsed name, before any cut, is already safe. */
  lemma StemIsSafe(kind: FileKind, id: string, t: string)
    requires id != [] && NoneOf(id, IsIllegal) && NoneOf(id, IsWhitespace)
    requires NoneOf(t, IsIllegal) && SingleSpaced(t) && Trimmed(t)
    ensures var n := CollapseDotRuns(ComposeName(kind, id, t));
      NoneOf(n, IsIllegal) && NoDoubleDot(n) && SingleSpaced(n)
  {
    var t' := if t == [] then id else t;
    assert SingleSpaced(id) && Trimmed(id);
    var sfx := Suffix(kind);
    SuffixSafe(kind);
    ConcatNoneOf(id, " ", IsIllegal);
    ConcatNoneOf(id + " ", t', IsIllegal);
    ConcatNoneOf(id + " " + t', sfx, IsIllegal);
    ConcatSingleSpaced(id, " ");
    ConcatSingleSpaced(id + " ", t');
    var stem := id + " " + t';
    assert stem[|stem| - 1] == t'[|t'| - 1];
    ConcatSingleSpaced(stem, sfx);
    var composed := stem + sfx;
    assert composed == ComposeName(kind, id, t);
    CollapseLeavesNoDoubleDot(composed);
    CollapseKeepsNoneOf(composed, IsIllegal);
    CollapseKeepsSingleSpaced(composed);
  }

  /**
   * An already clean title with a clean id comes out as `"{id} {title}{suffix}"`
   * unchanged (e.g. `"2508.14825 A Clean Title.pdf"`).
   */
  lemma CleanInputKept(kind: FileKind, id: string, title: string)
    requires title != [] && NoneOf(title, IsIllegal) && SingleSpaced(title) && Trimmed(title)
    requires NoDoubleDot(id + " " + title + Suffix(kind))
    requires |id + " " + title + Suffix(kind)| <= MaxLength
    ensures BuildFilename(kind, id, title) == id + " " + title + Suffix(kind)
  {
    CleanTitleKeepsClean(title);
    CollapseKeepsSingleDots(id + " " + title + Suffix(kind));
  }

  lemma CleanTitleKeepsClean(title: string)
    requires NoneOf(title, IsIllegal) && SingleSpaced(title) && Trimmed(title)
    ensures CleanTitle(title) == title
  {
    assert NoColon(title);
    assert ReplaceColons(title) == title;
    assert StripIllegal(title) == title;
    JsText.CollapseKeepsSingleSpaced(title);
  }
  /** Whitespace around a clean title is all that the clean-up removes. */
  lemma CleanTitleAround(w0: string, x: string, w1: string)
    requires AllOf(w0, IsWhitespace) && AllOf(w1, IsWhitespace)
    requires NoneOf(x, IsIllegal) && SingleSpaced(x) && Trimmed(x)
    ensures CleanTitle(w0 + x + w1) == x
  {
    var s := w0 + x + w1;
    assert forall i | 0 <= i < |s| :: s[i] != ':' by {
      forall i | 0 <= i < |s|
        ensures s[i] != ':'
      {
        if i < |w0| {
          assert s[i] == w0[i];
        } else if i < |w0| + |x| {
          assert s[i] == x[i - |w0|];
        } else {
          assert s[i] == w1[i - |w0| - |x|];
        }
      }
    }
    assert ReplaceColons(s) == s;
    StripIllegalAppend(w0 + x, w1);
    StripIllegalAppend(w0, x);
    var u := StripIllegal(w0);
    var v := StripIllegal(w1);
    StripIllegalKeepsAll(w0, IsWhitespace);
    StripIllegalKeepsAll(w1, IsWhitespace);
    assert StripIllegal(s) == u + x + v;
    BlankAroundCollapses(u, x, v);
  }

  /** An empty cleaned title is replaced by the id: `"{id} {id}{suffix}"`. */
  lemma BlankTitleUsesId(kind: FileKind, id: string, raw: string)
    requires CleanTitle(raw) == []
    requires NoDoubleDot(id + " " + id + Suffix(kind))
    requires |id + " " + id + Suffix(kind)| <= MaxLength
    ensures BuildFilename(kind, id, raw) == id + " " + id + Suffix(kind)
  {
    CollapseKeepsSingleDots(id + " " + id + Suffix(kind));
  }

  /** `buildPdfFilename("2508.14825", "A Clean Title")` */
  lemma PdfFilenameExample()
    ensures BuildPdfFilename("2508.14825", "A Clean Title") == "2508.14825 A Clean Title.pdf"
  {
    ExampleInputsClean();
    CleanInputKept(Pdf, "2508.14825", "A Clean Title");
  }

  lemma ExampleInputsClean()
    ensures var title := "A Clean Title";
      && NoneOf(title, IsIllegal) && SingleSpaced(title) && Trimmed(title)
      && "2508.14825" + " " + title + Suffix(Pdf) == "2508.14825 A Clean Title.pdf"
      && NoDoubleDot("2508.14825 A Clean Title.pdf")
  {
    LiteralSafe("A Clean Title");
    assert Trimmed("A Clean Title");
    ExampleNameSingleDots();
  }

  lemma ExampleNameSingleDots()
    ensures NoDoubleDot("2508.14825 A Clean Title.pdf")
  {
  }
}

=== FILE: headtitle.dfy ===
/**
 * Reading the paper id and title out of an arXiv page title such as
 * `"[2508.14825] Some Title - arXiv"`, the way
 * `/^\s*\[([^\]]+)\]\s*(.+?)\s*(?:-\s*arXiv.*)?$/i` does it.
 *
 * The regex is anchored at both ends, so the match is decided by the backtracking
 * order alone: the leading `\s*` and the bracketed group are forced, the `\s*` before
 * the title is greedy (tried from its longest run downwards), the title `(.+?)` is lazy
 * (tried from one character upwards), and what follows the title must be whitespace
 * or a `- arXiv…` tail.
 */
module HeadTitles {
  import opened Wrappers
  import opened JsText
  import opened ArxivTail

  /** The result of `parseArxivHeadTitle` for a non-empty title; `id` is `null` without a match. */
  datatype Parsed = Parsed(id: Option<string>, title: string)

  /** Where a capture group starts and how many characters it takes. */
  datatype Span = Span(start: nat, len: nat)

  /** `[^\]]` */
  predicate NotCloseBracket(c: char) {
    c != ']'
  }

  /**
   * After the title, `\s*(?:-\s*arXiv.*)?$` matches what is left: blanks, then either
   * the end or a dash followed by the `arXiv` word.
   */
  predicate TitleEndsBefore(u: string)
    decreases |u|
  {
    if u == [] then true
    else if IsWhitespace(u[0]) then TitleEndsBefore(u[1..])
    else u[0] == '-' && IsArxivWord(u[1..])
  }

  /** The scan above accepts exactly whitespace or a `- arXiv…` tail. */
  lemma {:induction false} TitleEndsBeforeIff(u: string)
    ensures TitleEndsBefore(u) <==> AllOf(u, IsWhitespace) || IsArxivTail(u)
    decreases |u|
  {
    if u != [] {
      if IsWhitespace(u[0]) {
        TitleEndsBeforeIff(u[1..]);
        var a := LeadingCount(u[1..], IsWhitespace);
        assert LeadingCount(u, IsWhitespace) == a + 1;
        assert a < |u[1..]| ==> u[a + 1] == u[1..][a] && u[a + 2..] == u[1..][a + 1..];
        assert AllOf(u, IsWhitespace) <==> AllOf(u[1..], IsWhitespace) by {
          assert forall i | 1 <= i < |u| :: u[i] == u[1..][i - 1];
        }
      } else {
        assert LeadingCount(u, IsWhitespace) == 0;
      }
    }
  }

  /** The lazy `(.+?)` can stop after `n` characters when it starts at `k` of `r`. */
  predicate TitleFits(r: string, k: nat, n: nat) {
    1 <= n && k + n <= |r| && NoneOf(r[k..k + n], IsLineTerminator) && TitleEndsBefore(r[k + n..])
  }

  /**
   * The lazy `(.+?)` starting at `k` of `r`, tried with `n` characters and upwards:
   * the first length that fits.
   */
  function LazyFrom(r: string, k: nat, n: nat): (m: Option<nat>)
    requires k <= |r|
    ensures m.Some? ==> n <= m.value && TitleFits(r, k, m.value)
    ensures m.Some? ==> forall j: nat | n <= j < m.value :: !TitleFits(r, k, j)
    ensures m.None? ==> forall j: nat | n <= j :: !TitleFits(r, k, j)
    decreases |r| - (k + n)
  {
    if k + n > |r| then None
    else if TitleFits(r, k, n) then Some(n)
    else LazyFrom(r, k, n + 1)
  }

  /** The shortest title starting at `k`. */
  function LazyTitle(r: string, k: nat): (n: Option<nat>)
    requires k <= |r|
    ensures n.Some? ==> TitleFits(r, k, n.value)
    ensures n.Some? ==> forall m: nat | m < n.value :: !TitleFits(r, k, m)
    ensures n.None? ==> forall m: nat :: !TitleFits(r, k, m)
  {
    LazyFrom(r, k, 0)
  }

  /** The greedy `\s*` gives back one character at a time, from `k` down to `0`. */
  function StartFrom(r: string, k: nat): (s: Option<nat>)
    requires k <= |r|
    ensures s.Some? ==> s.value <= k && LazyTitle(r, s.value).Some?
    ensures s.Some? ==> forall j: nat | s.value < j <= k :: LazyTitle(r, j).None?
    ensures s.None? ==> forall j: nat | j <= k :: LazyTitle(r, j).None?
    decreases k
  {
    if LazyTitle(r, k).Some? then Some(k)
    else if k == 0 then None
    else StartFrom(r, k - 1)
  }

  /**
   * `\s*(.+?)\s*(?:-\s*arXiv.*)?$` on what follows the closing bracket: the start
   * and the length of the captured title.
   */
  function TitleMatch(r: string): (m: Option<Span>)
    ensures m.Some? ==> 1 <= m.value.len && m.value.start + m.value.len <= |r|
  {
    match StartFrom(r, LeadingCount(r, IsWhitespace))
    case Some(k) => Some(Span(k, LazyTitle(r, k).value))
    case None => None
  }

  /** A title match starts after blanks only and is a fit. */
  lemma TitleMatchShape(r: string, m: Span)
    requires TitleMatch(r) == Some(m)
    ensures TitleFits(r, m.start, m.len) && AllOf(r[..m.start], IsWhitespace)
  {
    var k := m.start;
    assert forall i | 0 <= i < k :: r[..k][i] == r[i];
  }

  /** `^\s*\[([^\]]+)\]`: where the id starts and how long it is, or `None` when this prefix fails. */
  function IdGroup(h: string): (g: Option<Span>)
    ensures g.Some? ==> 1 <= g.value.len && g.value.start + g.value.len + 1 < |h|
  {
    var a := LeadingCount(h, IsWhitespace);
    if a < |h| && h[a] == '[' then
      var n := LeadingCount(h[a + 1..], NotCloseBracket);
      if 1 <= n && a + 1 + n < |h| then Some(Span(a, n)) else None
    else None
  }

  /** The id group sits between `[` and `]`, after blanks only, and holds no `]`. */
  lemma IdGroupShape(h: string, a: nat, n: nat)
    requires IdGroup(h) == Some(Span(a, n))
    ensures AllOf(h[..a], IsWhitespace) && h[a] == '[' && h[a + 1 + n] == ']'
    ensures AllOf(h[a + 1..a + 1 + n], NotCloseBracket)
  {
    assert forall i | 0 <= i < a :: h[..a][i] == h[i];
    SliceParts(h, a + 1, 0, n);
    assert h[a + 1 + n] == h[a + 1..][n];
  }

  /**
   * `parseArxivHeadTitle`: `None` for an empty title (the function returns `null`),
   * the captured id and title on a match, and no id with the whole input otherwise.
   */
  function ParseHeadTitle(h: string): (r: Option<Parsed>)
    ensures r.None? <==> h == []
    ensures r.Some? && r.value.id.None? ==> r.value.title == h
  {
    if h == [] then None
    else
      match IdGroup(h)
      case Some(g) => Some(AfterBracket(h, g))
      case None => Some(Parsed(None, h))
  }

  /** The rest of the regex, once `^\s*\[([^\]]+)\]` has matched the id group `g`. */
  function AfterBracket(h: string, g: Span): (p: Parsed)
    requires g.start + g.len + 2 <= |h|
    ensures p.id.None? ==> p.title == h
  {
    var r := h[g.start + g.len + 2..];
    match TitleMatch(r)
    case Some(m) => Parsed(Some(h[g.start + 1..g.start + 1 + g.len]), r[m.start..m.start + m.len])
    case None => Parsed(None, h)
  }

  /**
   * Every captured id and title sits where the regex says: whitespace, `[`, the id,
   * `]`, whitespace, the title, and a rest that is whitespace or a `- arXiv…` tail.
   */
  lemma ParsedPieces(h: string, id: string, title: string) returns (a: nat, k: nat)
    requires ParseHeadTitle(h) == Some(Parsed(Some(id), title))
    ensures a + |id| + 2 <= k && k + |title| <= |h|
    ensures AllOf(h[..a], IsWhitespace) && h[a] == '['
    ensures h[a + 1..a + 1 + |id|] == id && h[a + 1 + |id|] == ']'
    ensures AllOf(h[a + 2 + |id|..k], IsWhitespace)
    ensures h[k..k + |title|] == title
    ensures TitleEndsBefore(h[k + |title|..])
    ensures id != [] && AllOf(id, NotCloseBracket)
    ensures title != [] && NoneOf(title, IsLineTerminator)
  {
    var n, len, j;
    a, n, j, len := ParseUnfold(h, id, title);
    k := a + n + 2 + j;
    var e := k + len;
    PiecesAt(h, a, n, j, len, k, e);
    assert |id| == n && |title| == len;
    assert h[k + |title|..] == h[e..];
  }

  /** A captured id and title come from `IdGroup` and `TitleMatch`. */
  lemma ParseUnfold(h: string, id: string, title: string) returns (a: nat, n: nat, k: nat, len: nat)
    requires ParseHeadTitle(h) == Some(Parsed(Some(id), title))
    ensures IdGroup(h) == Some(Span(a, n)) && a + n + 2 <= |h|
    ensures TitleMatch(h[a + n + 2..]) == Some(Span(k, len))
    ensures id == h[a + 1..a + 1 + n] && title == h[a + n + 2..][k..k + len]
  {
    var g := IdGroup(h).value;
    a, n := g.start, g.len;
    assert AfterBracket(h, g) == Parsed(Some(id), title);
    var m := TitleMatch(h[a + n + 2..]).value;
    k, len := m.start, m.len;
  }

  /** The facts of `IdGroup` and `TitleMatch`, moved from the rest onto `h`. */
  lemma PiecesAt(h: string, a: nat, n: nat, j: nat, len: nat, k: nat, e: nat)
    requires IdGroup(h) == Some(Span(a, n)) && a + n + 2 <= |h|
    requires TitleMatch(h[a + n + 2..]) == Some(Span(j, len))
    requires k == a + n + 2 + j && e == k + len
    ensures e <= |h|
    ensures AllOf(h[..a], IsWhitespace) && h[a] == '[' && h[a + 1 + n] == ']'
    ensures 1 <= n && AllOf(h[a + 1..a + 1 + n], NotCloseBracket)
    ensures AllOf(h[a + n + 2..k], IsWhitespace)
    ensures 1 <= len && NoneOf(h[k..e], IsLineTerminator)
    ensures h[a + n + 2..][j..j + len] == h[k..e]
    ensures TitleEndsBefore(h[e..])
  {
    var d := a + n + 2;
    IdGroupShape(h, a, n);
    TitleMatchShape(h[d..], Span(j, len));
    SliceParts(h, d, j, len);
    var r := h[d..];
    assert r[..j] == h[d..k] && r[j..j + len] == h[k..e] && r[j + len..] == h[e..];
    assert TitleFits(r, j, len);
  }

  lemma SliceParts(h: string, d: nat, k: nat, n: nat)
    requires d + k + n <= |h|
    ensures h[d..][..k] == h[d..d + k]
    ensures h[d..][k..k + n] == h[d + k..d + k + n]
    ensures h[d..][k + n..] == h[d + k + n..]
  {
  }

  /**
   * What the title has to look like for the parse below to take it whole: non-empty,
   * trimmed, on one line, and with no dash followed by the word `arxiv`.
   */
  predicate PlainTitle(t: string) {
    t != [] && Trimmed(t) && NoArxivDash(t) && NoneOf(t, IsLineTerminator)
  }

  /**
   * `w0 + "[" + id + "]" + w + t + tail` gives `id` and `t` when `t` is a plain
   * title and `tail` is whitespace or a `- arXiv…` tail.
   */
  lemma ParseBracketedTitle(w0: string, id: string, w: string, t: string, tail: string)
    requires AllOf(w0, IsWhitespace) && id != [] && AllOf(id, NotCloseBracket)
    requires AllOf(w, IsWhitespace) && PlainTitle(t) && TitleEndsBefore(tail)
    ensures ParseHeadTitle(w0 + "[" + id + "]" + w + t + tail) == Some(Parsed(Some(id), t))
  {
    var r := w + t + tail;
    var h := w0 + "[" + id + "]" + w + t + tail;
    RestMatch(w, t, tail);
    BracketedRest(w0, id, r, h);
    Pieces(w, t, tail, |t|);
    assert t[..|t|] == t;
  }

  /** The leading whitespace and the bracketed id are forced. */
  lemma BracketShape(w0: string, id: string, r: string)
    requires AllOf(w0, IsWhitespace) && id != [] && AllOf(id, NotCloseBracket)
    ensures var h := w0 + "[" + id + "]" + r;
      && IdGroup(h) == Some(Span(|w0|, |id|))
      && h[|w0| + 1..|w0| + 1 + |id|] == id
      && h[|w0| + |id| + 2..] == r
  {
    var h := w0 + "[" + id + "]" + r;
    var q := "[" + id + "]" + r;
    assert h == w0 + q;
    LeadingCountAll(w0, q, IsWhitespace);
    var b := id + ("]" + r);
    assert h[|w0| + 1..] == b;
    LeadingCountAll(id, "]" + r, NotCloseBracket);
  }

  lemma BracketedRest(w0: string, id: string, r: string, h: string)
    requires h == w0 + "[" + id + "]" + r
    requires AllOf(w0, IsWhitespace) && id != [] && AllOf(id, NotCloseBracket)
    requires TitleMatch(r).Some?
    ensures var m := TitleMatch(r).value;
      ParseHeadTitle(h) == Some(Parsed(Some(id), r[m.start..m.start + m.len]))
  {
    BracketShape(w0, id, r);
  }

  /** With a plain title after the whitespace, the title is the shortest fit at the first non-space. */
  lemma RestMatch(w: string, t: string, tail: string)
    requires AllOf(w, IsWhitespace) && PlainTitle(t) && TitleEndsBefore(tail)
    ensures TitleMatch(w + t + tail) == Some(Span(|w|, |t|))
  {
    var r := w + t + tail;
    assert r == w + (t + tail);
    LeadingCountAll(w, t + tail, IsWhitespace);
    forall m: nat | m < |t|
      ensures !TitleFits(r, |w|, m)
    {
      if 1 <= m {
        Pieces(w, t, tail, m);
        NotEndBeforeInside(t, tail, m);
      }
    }
    Pieces(w, t, tail, |t|);
    assert t[..|t|] == t && t[|t|..] + tail == tail;
    LazyTitleIs(r, |w|, |t|);
  }

  /** A fitting length below which nothing fits is what the lazy quantifier takes. */
  lemma LazyTitleIs(r: string, k: nat, n: nat)
    requires k <= |r| && TitleFits(r, k, n)
    requires forall m: nat | m < n :: !TitleFits(r, k, m)
    ensures LazyTitle(r, k) == Some(n)
  {
  }

  lemma Pieces(w: string, t: string, tail: string, m: nat)
    requires m <= |t|
    ensures (w + t + tail)[|w|..|w| + m] == t[..m]
    ensures (w + t + tail)[|w| + m..] == t[m..] + tail
  {
  }

  /** The title cannot stop inside a plain title: the rest still starts with a word. */
  lemma NotEndBeforeInside(t: string, tail: string, m: nat)
    requires PlainTitle(t) && m < |t| && TitleEndsBefore(tail)
    ensures !TitleEndsBefore(t[m..] + tail)
  {
    var u := t[m..] + tail;
    TitleEndsBeforeIff(u);
    TitleEndsBeforeIff(tail);
    assert u[|t| - 1 - m] == t[|t| - 1];
    NoTailInsideTitle(t, tail, m);
    assert (t + tail)[m..] == u;
  }

  /** `"[2508.14825] Some Title - arXiv"` gives the id `2508.14825` and the title `Some Title`. */
  lemma HeadTitleExample()
    ensures ParseHeadTitle("[2508.14825]" + " Some Title - arXiv")
         == Some(Parsed(Some("2508.14825"), "Some Title"))
  {
    ExampleTail();
    TitleEndsBeforeIff(" - arXiv");
    ExampleParts();
    ExampleSplits();
    ParseBracketedTitle("", "2508.14825", " ", "Some Title", " - arXiv");
  }

  lemma ExampleSplits()
    ensures "" + "[" + "2508.14825" + "]" + " " + "Some Title" + " - arXiv"
         == "[2508.14825]" + " Some Title - arXiv"
  {
  }

  lemma ExampleParts()
    ensures AllOf(" ", IsWhitespace) && PlainTitle("Some Title")
    ensures AllOf("2508.14825", NotCloseBracket)
  {
    var t := "Some Title";
    assert forall i | 0 <= i < |t| :: t[i] != '-';
    DashFree(t);
  }

  /** A title whose first non-blank character is not `[` keeps no id and stays whole. */
  lemma NoBracketNoId(w0: string, q: string)
    requires AllOf(w0, IsWhitespace) && q != [] && !IsWhitespace(q[0]) && q[0] != '['
    ensures ParseHeadTitle(w0 + q) == Some(Parsed(None, w0 + q))
  {
    LeadingCountAll(w0, q, IsWhitespace);
    assert (w0 + q)[|w0|] == q[0];
  }

  /** A bracket that is never closed keeps no id either. */
  lemma UnclosedBracketNoId(w0: string, q: string)
    requires AllOf(w0, IsWhitespace) && AllOf(q, NotCloseBracket)
    ensures ParseHeadTitle(w0 + "[" + q) == Some(Parsed(None, w0 + "[" + q))
  {
    var h := w0 + "[" + q;
    assert h == w0 + ("[" + q);
    LeadingCountAll(w0, "[" + q, IsWhitespace);
    assert h[|w0| + 1..] == q;
    LeadingCountAll(q, [], NotCloseBracket);
    assert q + [] == q;
  }
}

=== FILE: jstext.dfy ===
/**
 * Character classes and small string scans shared by every part of the model.
 *
 * A JavaScript string is a sequence of UTF-16 code units; here each Dafny `char`
 * stands for one code unit, which is exact for text in the Basic Multilingual Plane.
 */
module JsText {
  import opened Wrappers

  /** The line terminators of ECMA-262 (section 12.3), the characters `.` in a regex refuses. */
  predicate IsLineTerminator(c: char) {
    c == '\n' || c == '\r' || c == '\U{2028}' || c == '\U{2029}'
  }

  /**
   * JavaScript `\s`: WhiteSpace and LineTerminator of ECMA-262 (sections 12.2 and 12.3).
   * `String.prototype.trim` strips exactly the same set.
   */
  predicate IsWhitespace(c: char) {
    || c == '\t' || c == '\U{B}' || c == '\U{C}' || c == ' ' || c == '\U{A0}'
    || c == '\U{1680}' || ('\U{2000}' <= c <= '\U{200A}') || c == '\U{202F}'
    || c == '\U{205F}' || c == '\U{3000}' || c == '\U{FEFF}'
    || IsLineTerminator(c)
  }

  /** JavaScript `\d` and `[0-9]` (without the `u` flag). */
  predicate IsDigit(c: char) {
    '0' <= c <= '9'
  }

  /** `[0-9a-fA-F]` */
  predicate IsHexDigit(c: char) {
    IsDigit(c) || 'a' <= c <= 'f' || 'A' <= c <= 'F'
  }

  /** The value of one digit of `[0-9a-fA-F]`. */
  function HexDigitValue(c: char): (d: nat)
    requires IsHexDigit(c)
    ensures d < 16
    ensures IsDigit(c) ==> d == c as int - '0' as int
  {
    if IsDigit(c) then c as int - '0' as int
    else if 'a' <= c <= 'f' then c as int - 'a' as int + 10
    else c as int - 'A' as int + 10
  }

  /** The value of the digit string `ds` in `base`, most significant digit first. */
  function DigitsValue(ds: string, base: nat): nat
    requires AllOf(ds, IsHexDigit)
  {
    if ds == [] then 0
    else DigitsValue(ds[..|ds| - 1], base) * base + HexDigitValue(ds[|ds| - 1])
  }

  /**
   * Case folding of a non-unicode `/i` regex restricted to what matters here:
   * ASCII letters match their other case, and no other character matches an ASCII one.
   */
  function AsciiLower(c: char): (r: char)
    ensures r == c || ('A' <= c <= 'Z' && r as int == c as int + 32)
    ensures 'a' <= r <= 'z' <==> ('a' <= c <= 'z' || 'A' <= c <= 'Z')
  {
    if 'A' <= c <= 'Z' then (c as int + 32) as char else c
  }

  /** `s` has `p` (written in lower case) at position `i`, ignoring ASCII case. */
  predicate CiAt(s: string, i: nat, p: string) {
    i + |p| <= |s| && forall k | 0 <= k < |p| :: AsciiLower(s[i + k]) == p[k]
  }

  predicate AllOf(s: string, p: char -> bool) {
    forall i | 0 <= i < |s| :: p(s[i])
  }

  predicate NoneOf(s: string, p: char -> bool) {
    forall i | 0 <= i < |s| :: !p(s[i])
  }

  predicate EndsWith(s: string, suffix: string) {
    |suffix| <= |s| && s[|s| - |suffix|..] == suffix
  }

  /** Length of the longest prefix of `s` whose characters all satisfy `p` (a greedy `[p]*`). */
  function LeadingCount(s: string, p: char -> bool): (n: nat)
    ensures n <= |s|
    ensures forall i | 0 <= i < n :: p(s[i])
    ensures n < |s| ==> !p(s[n])
  {
    if s == [] || !p(s[0]) then 0 else 1 + LeadingCount(s[1..], p)
  }

  /** Length of the longest suffix of `s` whose characters all satisfy `p` (a `[p]+$` match). */
  function TrailingCount(s: string, p: char -> bool): (n: nat)
    ensures n <= |s|
    ensures forall i | |s| - n <= i < |s| :: p(s[i])
    ensures n < |s| ==> !p(s[|s| - n - 1])
  {
    if s == [] || !p(s[|s| - 1]) then 0 else 1 + TrailingCount(s[..|s| - 1], p)
  }

  /** `s.replace(/\s+/g, ' ')`: every maximal run of whitespace becomes one space. */
  function CollapseWhitespace(s: string): (r: string)
    ensures |r| <= |s|
    ensures r == [] <==> s == []
    ensures r != [] ==> (IsWhitespace(r[0]) <==> IsWhitespace(s[0]))
    ensures r != [] ==> (IsWhitespace(r[|r| - 1]) <==> IsWhitespace(s[|s| - 1]))
    ensures SingleSpaced(r)
    decreases |s|
  {
    if s == [] then []
    else if IsWhitespace(s[0]) then
      var n := LeadingCount(s, IsWhitespace);
      [' '] + CollapseWhitespace(s[n..])
    else [s[0]] + CollapseWhitespace(s[1..])
  }

  /** The only whitespace is the plain space, and no two spaces are adjacent. */
  predicate SingleSpaced(s: string) {
    && (forall i | 0 <= i < |s| :: IsWhitespace(s[i]) ==> s[i] == ' ')
    && (forall i, j | 0 <= i < |s| && j == i + 1 && j < |s| :: !(s[i] == ' ' && s[j] == ' '))
  }

  /** Neither end of `s` is whitespace. */
  predicate Trimmed(s: string) {
    s != [] ==> !IsWhitespace(s[0]) && !IsWhitespace(s[|s| - 1])
  }

  /** `String.prototype.trim`. */
  function Trim(s: string): (r: string)
    ensures Trimmed(r)
    ensures |r| <= |s|
    ensures Trimmed(s) ==> r == s
  {
    var a := LeadingCount(s, IsWhitespace);
    var b := |s| - TrailingCount(s[a..], IsWhitespace);
    assert Trimmed(s) && s != [] ==> a == 0 && b == |s|;
    s[a..b]
  }

  /** What `Trim` removes is whitespace, from the two ends only. */
  lemma TrimIsSlice(s: string)
    ensures exists a, b | 0 <= a <= b <= |s| ::
      && Trim(s) == s[a..b]
      && (forall i | 0 <= i < a :: IsWhitespace(s[i]))
      && (forall i | b <= i < |s| :: IsWhitespace(s[i]))
  {
    var a := LeadingCount(s, IsWhitespace);
    var n := TrailingCount(s[a..], IsWhitespace);
    var b := |s| - n;
    assert Trim(s) == s[a..b];
    assert forall i | 0 <= i < a :: IsWhitespace(s[i]);
    assert forall i | b <= i < |s| :: s[i] == s[a..][i - a];
    assert forall i | b <= i < |s| :: IsWhitespace(s[i]);
  }

  /** Collapsing whitespace changes nothing in a single-spaced string. */
  lemma {:induction false} CollapseKeepsSingleSpaced(s: string)
    requires SingleSpaced(s)
    ensures CollapseWhitespace(s) == s
    decreases |s|
  {
    if s != [] {
      if IsWhitespace(s[0]) {
        assert |s| > 1 ==> s[1] != ' ';
        assert LeadingCount(s, IsWhitespace) == 1;
      }
      CollapseKeepsSingleSpaced(s[1..]);
    }
  }

  /** Whitespace runs cannot straddle a join next to a non-blank, so the collapse distributes over it. */
  lemma {:induction false} CollapseAppend(a: string, b: string)
    requires a == [] || b == [] || !IsWhitespace(a[|a| - 1]) || !IsWhitespace(b[0])
    ensures CollapseWhitespace(a + b) == CollapseWhitespace(a) + CollapseWhitespace(b)
    decreases |a|
  {
    if a == [] {
      assert a + b == b;
    } else if IsWhitespace(a[0]) {
      var n := LeadingCount(a, IsWhitespace);
      if n == |a| {
        BlankRunThen(a, b);
      } else {
        CollapseAppend(a[n..], b);
        AppendAfterRun(a, b, n);
      }
    } else {
      CollapseAppend(a[1..], b);
      AppendAfterPlain(a, b);
    }
  }

  /** The step of `CollapseAppend` past a whitespace run that ends inside `a`. */
  lemma AppendAfterRun(a: string, b: string, n: nat)
    requires a != [] && IsWhitespace(a[0]) && n == LeadingCount(a, IsWhitespace) && n < |a|
    requires CollapseWhitespace(a[n..] + b) == CollapseWhitespace(a[n..]) + CollapseWhitespace(b)
    ensures CollapseWhitespace(a + b) == CollapseWhitespace(a) + CollapseWhitespace(b)
  {
    var s := a + b;
    LeadingCountExtends(a, b, IsWhitespace);
    HeadDropConcat(a, b, n);
    CollapseBlankStep(s, n);
    CollapseBlankStep(a, n);
    Regroup([' '], CollapseWhitespace(s), CollapseWhitespace(a), CollapseWhitespace(s[n..]),
      CollapseWhitespace(a[n..]), CollapseWhitespace(b));
  }

  /** The step of `CollapseAppend` past a character that is not whitespace. */
  lemma AppendAfterPlain(a: string, b: string)
    requires a != [] && !IsWhitespace(a[0])
    requires CollapseWhitespace(a[1..] + b) == CollapseWhitespace(a[1..]) + CollapseWhitespace(b)
    ensures CollapseWhitespace(a + b) == CollapseWhitespace(a) + CollapseWhitespace(b)
  {
    var s := a + b;
    HeadDropConcat(a, b, 1);
    CollapsePlainStep(s);
    CollapsePlainStep(a);
    Regroup([a[0]], CollapseWhitespace(s), CollapseWhitespace(a), CollapseWhitespace(s[1..]),
      CollapseWhitespace(a[1..]), CollapseWhitespace(b));
  }

  lemma HeadDropConcat(a: string, b: string, n: nat)
    requires n <= |a| && a != []
    ensures (a + b)[0] == a[0] && (a + b)[n..] == a[n..] + b
  {
  }

  lemma Regroup(h: string, cs: string, ca: string, rs: string, p: string, q: string)
    requires cs == h + rs && rs == p + q && ca == h + p
    ensures cs == ca + q
  {
  }

  lemma ConcatAssoc(x: string, y: string, z: string)
    ensures x + (y + z) == (x + y) + z
  {
  }

  /** The definition's step at a character that is not whitespace. */
  lemma CollapsePlainStep(s: string)
    requires s != [] && !IsWhitespace(s[0])
    ensures CollapseWhitespace(s) == [s[0]] + CollapseWhitespace(s[1..])
  {
  }

  /** The definition's step at a whitespace run of length `n`. */
  lemma CollapseBlankStep(s: string, n: nat)
    requires s != [] && IsWhitespace(s[0]) && n == LeadingCount(s, IsWhitespace)
    ensures CollapseWhitespace(s) == [' '] + CollapseWhitespace(s[n..])
  {
  }

  /** A whole whitespace run before a non-blank (or the end) becomes one space. */
  lemma BlankRunThen(w: string, b: string)
    requires w != [] && AllOf(w, IsWhitespace) && (b == [] || !IsWhitespace(b[0]))
    ensures CollapseWhitespace(w) == " "
    ensures CollapseWhitespace(w + b) == [' '] + CollapseWhitespace(b)
  {
    LeadingCountAll(w, b, IsWhitespace);
    LeadingCountAll(w, [], IsWhitespace);
    assert w + [] == w;
    assert (w + b)[0] == w[0];
    assert (w + b)[|w|..] == b;
    CollapseBlankStep(w, |w|);
    CollapseBlankStep(w + b, |w|);
    assert w[|w|..] == [];
  }

  /**
   * A whitespace run between text without whitespace and a non-blank becomes one
   * space, and the text before it is kept as it is.
   */
  lemma CollapseRun(p: string, w: string, q: string)
    requires NoneOf(p, IsWhitespace) && w != [] && AllOf(w, IsWhitespace)
    requires q == [] || !IsWhitespace(q[0])
    ensures CollapseWhitespace(p + w + q) == p + " " + CollapseWhitespace(q)
  {
    ConcatAssoc(p, w, q);
    assert (w + q)[0] == w[0];
    CollapseAppend(p, w + q);
    assert SingleSpaced(p);
    CollapseKeepsSingleSpaced(p);
    BlankRunThen(w, q);
    ConcatAssoc(p, " ", CollapseWhitespace(q));
  }

  /** Text that starts and ends with a non-blank collapses independently of its surroundings. */
  lemma CollapseAround(u: string, x: string, v: string)
    requires x != [] && !IsWhitespace(x[0]) && !IsWhitespace(x[|x| - 1])
    ensures CollapseWhitespace(u + x + v) == CollapseWhitespace(u) + CollapseWhitespace(x) + CollapseWhitespace(v)
  {
    ConcatAssoc(u, x, v);
    assert (x + v)[0] == x[0];
    CollapseAppend(x, v);
    CollapseAppend(u, x + v);
    ConcatAssoc(CollapseWhitespace(u), CollapseWhitespace(x), CollapseWhitespace(v));
  }

  /** Blank text collapses to at most one space. */
  lemma CollapseBlank(s: string)
    requires AllOf(s, IsWhitespace)
    ensures AllOf(CollapseWhitespace(s), IsWhitespace)
  {
    if s != [] {
      LeadingCountAll(s, [], IsWhitespace);
      assert s + [] == s;
    }
  }

  /** `trim` removes exactly the whitespace around a trimmed text. */
  lemma TrimAround(u: string, x: string, v: string)
    requires AllOf(u, IsWhitespace) && AllOf(v, IsWhitespace) && Trimmed(x)
    ensures Trim(u + x + v) == x
  {
    var s := u + x + v;
    if x == [] {
      assert s == u + v;
      LeadingCountAll(u + v, [], IsWhitespace);
      assert s + [] == s;
    } else {
      assert s == u + (x + v);
      LeadingCountAll(u, x + v, IsWhitespace);
      assert s[|u|..] == x + v;
      TrailingCountAll(x, v, IsWhitespace);
      assert s[|u|..|u| + |x|] == x;
    }
  }

  /** Collapsing, then trimming, whitespace around single-spaced trimmed text leaves the text. */
  lemma BlankAroundCollapses(u: string, x: string, v: string)
    requires AllOf(u, IsWhitespace) && AllOf(v, IsWhitespace) && SingleSpaced(x) && Trimmed(x)
    ensures Trim(CollapseWhitespace(u + x + v)) == x
  {
    if x == [] {
      assert u + x + v == u + v;
      BlankCollapsesAway(u + v);
    } else {
      TrimCollapsedAround(u, x, v);
    }
  }

  lemma TrimCollapsedAround(u: string, x: string, v: string)
    requires AllOf(u, IsWhitespace) && AllOf(v, IsWhitespace) && SingleSpaced(x) && Trimmed(x) && x != []
    ensures Trim(CollapseWhitespace(u + x + v)) == x
  {
    var c := CollapseWhitespace(u + x + v);
    var cu, cv := CollapseWhitespace(u), CollapseWhitespace(v);
    CollapseAround(u, x, v);
    CollapseKeepsSingleSpaced(x);
    assert c == cu + x + cv;
    CollapseBlank(u);
    CollapseBlank(v);
    TrimAround(cu, x, cv);
  }

  lemma BlankCollapsesAway(s: string)
    requires AllOf(s, IsWhitespace)
    ensures Trim(CollapseWhitespace(s)) == []
  {
    var c := CollapseWhitespace(s);
    CollapseBlank(s);
    assert c + [] + [] == c;
    TrimAround(c, [], []);
  }

  /** Joining two single-spaced strings keeps them so unless two spaces meet. */
  lemma ConcatSingleSpaced(a: string, b: string)
    requires SingleSpaced(a) && SingleSpaced(b)
    requires a == [] || b == [] || !(a[|a| - 1] == ' ' && b[0] == ' ')
    ensures SingleSpaced(a + b)
  {
    var s := a + b;
    forall i, j | 0 <= i < |s| && j == i + 1 && j < |s|
      ensures !(s[i] == ' ' && s[j] == ' ')
    {
      if j < |a| {
        assert s[i] == a[i] && s[j] == a[j];
      } else if i >= |a| {
        assert s[i] == b[i - |a|] && s[j] == b[j - |a|];
      }
    }
  }

  lemma ConcatNoneOf(a: string, b: string, p: char -> bool)
    requires NoneOf(a, p) && NoneOf(b, p)
    ensures NoneOf(a + b, p)
  {
    var s := a + b;
    assert forall i | 0 <= i < |s| :: s[i] == if i < |a| then a[i] else b[i - |a|];
  }

  lemma PrefixKeeps(s: string, k: nat, p: char -> bool)
    requires k <= |s|
    ensures NoneOf(s, p) ==> NoneOf(s[..k], p)
    ensures SingleSpaced(s) ==> SingleSpaced(s[..k])
  {
    var t := s[..k];
    assert forall i | 0 <= i < k :: t[i] == s[i];
  }

  lemma LeadingCountStopsAt(a: string, b: string, p: char -> bool)
    requires b != [] && !p(b[0])
    ensures LeadingCount(a + b, p) == LeadingCount(a, p)
    decreases |a|
  {
    if a != [] && p(a[0]) {
      assert (a + b)[1..] == a[1..] + b;
      LeadingCountStopsAt(a[1..], b, p);
    }
  }

  /** A scan that stops inside `v` stops at the same place in `v + w`. */
  lemma {:induction false} LeadingCountExtends(v: string, w: string, p: char -> bool)
    requires LeadingCount(v, p) < |v|
    ensures LeadingCount(v + w, p) == LeadingCount(v, p)
    decreases |v|
  {
    if p(v[0]) {
      assert (v + w)[1..] == v[1..] + w;
      LeadingCountExtends(v[1..], w, p);
    }
  }

  lemma LeadingCountAll(w: string, q: string, p: char -> bool)
    requires AllOf(w, p)
    requires q == [] || !p(q[0])
    ensures LeadingCount(w + q, p) == |w|
    decreases |w|
  {
    if w == [] {
      assert w + q == q;
    } else {
      assert (w + q)[1..] == w[1..] + q;
      LeadingCountAll(w[1..], q, p);
    }
  }

  lemma TrailingCountAll(q: string, w: string, p: char -> bool)
    requires AllOf(w, p)
    requires q == [] || !p(q[|q| - 1])
    ensures TrailingCount(q + w, p) == |w|
    decreases |w|
  {
    if w == [] {
      assert q + w == q;
    } else {
      assert (q + w)[..|q + w| - 1] == q + w[..|w| - 1];
      TrailingCountAll(q, w[..|w| - 1], p);
    }
  }

  /** `parts.join(sep)` */
  function Join(parts: seq<string>, sep: string): string {
    if parts == [] then []
    else if |parts| == 1 then parts[0]
    else parts[0] + sep + Join(parts[1..], sep)
  }

  /**
   * The leftmost position in `from..to` where `p` holds: how a regex without the
   * `g` flag picks its match among the start positions it tries left to right.
   */
  function FindFirst(p: nat -> bool, from: nat, to: nat): (r: Option<nat>)
    requires from <= to
    decreases (to as int) - (from as int)
    ensures r.Some? ==> from <= r.value <= to && p(r.value)
    ensures r.Some? ==> (forall j: nat | from <= j < r.value :: !p(j))
    ensures r.None? <==> (forall j: nat | from <= j <= to :: !p(j))
  {
    if p(from) then Some(from)
    else if from == to then None
    else FindFirst(p, from + 1, to)
  }

  lemma DropConcat(u: string, w: string, k: nat)
    requires k <= |u|
    ensures (u + w)[k..] == u[k..] + w
  {
  }

  /** A mismatch on the first character rules out a case-insensitive match. */
  lemma NotCiAtFirst(s: string, i: nat, p: string)
    requires p != [] && i < |s| && AsciiLower(s[i]) != p[0]
    ensures !CiAt(s, i, p)
  {
    assert s[i + 0] == s[i];
  }
}

=== FILE: paperid.dfy ===
/**
 * `extractPaperId`: the arXiv identifier in a page URL.  Three regexes are
 * tried in order, each searched leftmost-first, and the first that matches
 * gives the id, from which one trailing `.pdf` (any case) is removed:
 *
 *   1. `arxiv\.org\/(?:abs|pdf)\/([^/?#]+)(?:\.pdf)?`   with `i`
 *   2. `arxiv\.org\/(?:abs|pdf)\/([^/?#]+)$`            with `i`
 *   3. `([0-9]{4}\.[0-9]{4,5}(?:v[0-9]+)?)`              with `i`
 *
 * In the first, the greedy `[^/?#]+` already swallows any `.pdf`, so the
 * optional group always matches empty and the id is the whole segment.
 */
module PaperId {
  import opened Wrappers
  import opened JsText

  /** `[^/?#]` */
  predicate IsSegmentChar(c: char) {
    c != '/' && c != '?' && c != '#'
  }

  /** `arxiv.org/abs/` or `arxiv.org/pdf/`, in any ASCII case, at `i`. */
  predicate AbsOrPdfAt(url: string, i: nat) {
    CiAt(url, i, "arxiv.org/") && (CiAt(url, i + 10, "abs/") || CiAt(url, i + 10, "pdf/"))
  }

  /** The first regex matches at `i`: the prefix and at least one segment character. */
  predicate FirstPatternAt(url: string, i: nat) {
    AbsOrPdfAt(url, i) && i + 14 < |url| && IsSegmentChar(url[i + 14])
  }

  /** The second regex matches at `i`: the prefix, then segment characters up to the end. */
  predicate SecondPatternAt(url: string, i: nat) {
    AbsOrPdfAt(url, i) && i + 14 < |url| && AllOf(url[i + 14..], IsSegmentChar)
  }

  /** The third regex matches at `i`: four digits, a dot, four digits. */
  predicate ThirdPatternAt(url: string, i: nat) {
    && i + 9 <= |url|
    && AllOf(url[i..i + 4], IsDigit) && url[i + 4] == '.' && AllOf(url[i + 5..i + 9], IsDigit)
  }

  /** The capture of the first regex at `i`: the greedy run of segment characters. */
  function Segment(url: string, i: nat): (s: string)
    requires FirstPatternAt(url, i)
    ensures s != [] && AllOf(s, IsSegmentChar)
    ensures i + 14 + |s| <= |url| && s == url[i + 14..i + 14 + |s|]
    ensures i + 14 + |s| == |url| || !IsSegmentChar(url[i + 14 + |s|])
  {
    var start := i + 14;
    url[start..start + LeadingCount(url[start..], IsSegmentChar)]
  }

  /** The capture of the third regex at `i`: a fifth digit if there is one, then `v<digits>` if present. */
  function NewStyleId(url: string, i: nat): (s: string)
    requires ThirdPatternAt(url, i)
    ensures 9 <= |s| && i + |s| <= |url| && s == url[i..i + |s|]
    ensures AllOf(s, IsSegmentChar)
  {
    var e := if i + 9 < |url| && IsDigit(url[i + 9]) then i + 10 else i + 9;
    var end :=
      if e + 1 < |url| && (url[e] == 'v' || url[e] == 'V') && IsDigit(url[e + 1])
      then e + 1 + LeadingCount(url[e + 1..], IsDigit)
      else e;
    assert forall k | i <= k < end :: IsDigit(url[k]) || url[k] == '.' || url[k] == 'v' || url[k] == 'V';
    url[i..end]
  }

  /** `[0-9]{4}\.[0-9]{n - 5}` at the start of `s`, for `n` of 9 or 10. */
  predicate IdCore(s: string, n: nat) {
    9 <= n <= |s| && AllOf(s[..4], IsDigit) && s[4] == '.' && AllOf(s[5..n], IsDigit)
  }

  /** `(?:v[0-9]+)?` with the `i` flag, matching all of `r`. */
  predicate VersionTail(r: string) {
    r == [] || (|r| >= 2 && (r[0] == 'v' || r[0] == 'V') && AllOf(r[1..], IsDigit))
  }

  /** `s` is matched in full by `[0-9]{4}\.[0-9]{4,5}(?:v[0-9]+)?` with the `i` flag. */
  predicate IsNewStyleId(s: string) {
    || (|s| >= 9 && IdCore(s, 9) && VersionTail(s[9..]))
    || (|s| >= 10 && IdCore(s, 10) && VersionTail(s[10..]))
  }

  /**
   * The capture is what the regex takes greedily: a whole id, and no longer
   * prefix of the rest of `url` is one.
   */
  lemma NewStyleIdLongest(url: string, i: nat)
    requires ThirdPatternAt(url, i)
    ensures IsNewStyleId(NewStyleId(url, i))
    ensures forall n | i + |NewStyleId(url, i)| < n <= |url| :: !IsNewStyleId(url[i..n])
  {
    var s := NewStyleId(url, i);
    var e := if i + 9 < |url| && IsDigit(url[i + 9]) then i + 10 else i + 9;
    var hasV := e + 1 < |url| && (url[e] == 'v' || url[e] == 'V') && IsDigit(url[e + 1]);
    var d := if hasV then LeadingCount(url[e + 1..], IsDigit) else 0;
    assert i + |s| == if hasV then e + 1 + d else e;
    CaptureIsId(url, i, e, hasV, d);
    forall n | i + |s| < n <= |url|
      ensures !IsNewStyleId(url[i..n])
    {
      NoLongerId(url, i, e, hasV, d, n);
    }
  }

  lemma CaptureIsId(url: string, i: nat, e: nat, hasV: bool, d: nat)
    requires ThirdPatternAt(url, i)
    requires e == if i + 9 < |url| && IsDigit(url[i + 9]) then i + 10 else i + 9
    requires hasV == (e + 1 < |url| && (url[e] == 'v' || url[e] == 'V') && IsDigit(url[e + 1]))
    requires d == if hasV then LeadingCount(url[e + 1..], IsDigit) else 0
    ensures IsNewStyleId(url[i..if hasV then e + 1 + d else e])
  {
    var end := if hasV then e + 1 + d else e;
    var t := url[i..end];
    var k := e - i;
    assert t[..4] == url[i..i + 4];
    forall j | 5 <= j < k
      ensures IsDigit(t[j])
    {
      if j < 9 {
        assert t[j] == url[i + 5..i + 9][j - 5];
      }
    }
    assert IdCore(t, k);
    if hasV {
      assert t[k] == url[e];
      assert t[k + 1..] == url[e + 1..][..d];
    }
    assert VersionTail(t[k..]);
  }

  /** A prefix longer than the capture is no whole id. */
  lemma NoLongerId(url: string, i: nat, e: nat, hasV: bool, d: nat, n: nat)
    requires ThirdPatternAt(url, i)
    requires e == if i + 9 < |url| && IsDigit(url[i + 9]) then i + 10 else i + 9
    requires hasV == (e + 1 < |url| && (url[e] == 'v' || url[e] == 'V') && IsDigit(url[e + 1]))
    requires d == if hasV then LeadingCount(url[e + 1..], IsDigit) else 0
    requires (if hasV then e + 1 + d else e) < n <= |url|
    ensures !IsNewStyleId(url[i..n])
  {
    var t := url[i..n];
    var k := e - i;
    assert t[k] == url[e];
    if k == 10 {
      // the fifth digit is there, so a version tail could only start after it
      assert t[9] == url[i + 9] && IsDigit(t[9]);
      VersionTailAfter(url, i, e, hasV, d, n);
    } else {
      // no fifth digit: `t[9]` is not a digit
      assert t[9] == url[i + 9] && !IsDigit(t[9]);
      VersionTailAfter(url, i, e, hasV, d, n);
    }
  }

  /** After the digits the capture took, the rest up to `n` is no version tail. */
  lemma VersionTailAfter(url: string, i: nat, e: nat, hasV: bool, d: nat, n: nat)
    requires i + 9 <= e <= i + 10
    requires hasV == (e + 1 < |url| && (url[e] == 'v' || url[e] == 'V') && IsDigit(url[e + 1]))
    requires d == if hasV then LeadingCount(url[e + 1..], IsDigit) else 0
    requires (if hasV then e + 1 + d else e) < n <= |url|
    ensures !VersionTail(url[i..n][e - i..])
  {
    var r := url[i..n][e - i..];
    assert r == url[e..n];
    if hasV {
      // the digit scan stopped at `url[e + 1 + d]`, which lies inside `r`
      var q := url[e + 1..];
      assert r[1..][d] == q[d] && !IsDigit(q[d]);
    } else if |r| >= 2 && (r[0] == 'v' || r[0] == 'V') {
      assert r[1..][0] == url[e + 1] && !IsDigit(url[e + 1]);
    }
  }

  /** `s` ends with `.pdf` in any ASCII case. */
  predicate EndsWithPdf(s: string) {
    |s| >= 4 && CiAt(s, |s| - 4, ".pdf")
  }

  /** `.replace(/\.pdf$/i, '')` */
  function StripPdf(s: string): (r: string)
    ensures EndsWithPdf(s) ==> |r| + 4 == |s| && r == s[..|r|]
    ensures !EndsWithPdf(s) ==> r == s
  {
    if EndsWithPdf(s) then s[..|s| - 4] else s
  }

  function FirstMatch(url: string): (r: Option<nat>)
    ensures r.Some? ==> FirstPatternAt(url, r.value)
    ensures r.Some? ==> forall j: nat | j < r.value :: !FirstPatternAt(url, j)
    ensures r.None? <==> forall j: nat :: !FirstPatternAt(url, j)
  {
    var at := (j: nat) => FirstPatternAt(url, j);
    assert forall j: nat :: at(j) == FirstPatternAt(url, j);
    FindFirst(at, 0, |url|)
  }

  function SecondMatch(url: string): (r: Option<nat>)
    ensures r.Some? ==> SecondPatternAt(url, r.value)
    ensures r.None? <==> forall j: nat :: !SecondPatternAt(url, j)
  {
    var at := (j: nat) => SecondPatternAt(url, j);
    assert forall j: nat :: at(j) == SecondPatternAt(url, j);
    FindFirst(at, 0, |url|)
  }

  function ThirdMatch(url: string): (r: Option<nat>)
    ensures r.Some? ==> ThirdPatternAt(url, r.value)
    ensures r.Some? ==> forall j: nat | j < r.value :: !ThirdPatternAt(url, j)
    ensures r.None? <==> forall j: nat :: !ThirdPatternAt(url, j)
  {
    var at := (j: nat) => ThirdPatternAt(url, j);
    assert forall j: nat :: at(j) == ThirdPatternAt(url, j);
    FindFirst(at, 0, |url|)
  }

  /** `extractPaperId`; `None` is the `null` it returns when no pattern matches. */
  function ExtractPaperId(url: string): (r: Option<string>)
    ensures r.None? <==> forall j: nat :: !FirstPatternAt(url, j) && !ThirdPatternAt(url, j)
    ensures r.Some? ==> AllOf(r.value, IsSegmentChar) && |r.value| <= |url|
  {
    match FirstMatch(url)
    case Some(i) => Some(StripPdf(Segment(url, i)))
    case None =>
      match SecondMatch(url)
      // unreachable: see SecondNeverDecides
      case Some(i) => SecondNeverDecides(url, i); assert false; None
      case None =>
        match ThirdMatch(url)
        case Some(i) => Some(StripPdf(NewStyleId(url, i)))
        case None => None
  }

  /** Wherever the second regex matches, the first one matches too. */
  lemma SecondImpliesFirst(url: string, i: nat)
    requires SecondPatternAt(url, i)
    ensures FirstPatternAt(url, i)
  {
    assert url[i + 14..][0] == url[i + 14];
  }

  /** So the second regex can never be the one that decides. */
  lemma SecondNeverDecides(url: string, i: nat)
    requires SecondPatternAt(url, i)
    ensures FirstMatch(url).Some?
  {
    SecondImpliesFirst(url, i);
  }

  /**
   * With an `arxiv.org/abs/` or `/pdf/` prefix, the id is the leftmost such
   * segment, up to the next `/`, `?` or `#`, minus one `.pdf`.
   */
  lemma ExtractFromArxivPath(url: string, i: nat)
    requires FirstPatternAt(url, i) && forall j: nat | j < i :: !FirstPatternAt(url, j)
    ensures ExtractPaperId(url) == Some(StripPdf(Segment(url, i)))
  {
    var m := FirstMatch(url);
    if m.value < i {
    } else if m.value > i {
    }
  }

  /** Only without such a prefix is the leftmost new-style id taken. */
  lemma ExtractFallsBackToId(url: string, i: nat)
    requires forall j: nat :: !FirstPatternAt(url, j)
    requires ThirdPatternAt(url, i) && forall j: nat | j < i :: !ThirdPatternAt(url, j)
    ensures ExtractPaperId(url) == Some(NewStyleId(url, i))
  {
    var m := ThirdMatch(url);
    if m.value < i {
    } else if m.value > i {
    }
    var s := NewStyleId(url, i);
    assert !EndsWithPdf(s) by {
      NewStyleIdEndsInDigit(url, i);
      assert AsciiLower(s[|s| - 1]) == s[|s| - 1] != ".pdf"[3];
    }
  }

  lemma NewStyleIdEndsInDigit(url: string, i: nat)
    requires ThirdPatternAt(url, i)
    ensures IsDigit(NewStyleId(url, i)[|NewStyleId(url, i)| - 1])
  {
    var e := if i + 9 < |url| && IsDigit(url[i + 9]) then i + 10 else i + 9;
    assert IsDigit(url[e - 1]);
    if e + 1 < |url| && (url[e] == 'v' || url[e] == 'V') && IsDigit(url[e + 1]) {
      var n := LeadingCount(url[e + 1..], IsDigit);
      assert url[e + 1..][n - 1] == url[e + n];
    }
  }

  // ---------------------------------------------------------------------------
  // Page URLs

  /**
   * `https://arxiv.org/abs/<seg>…` and `https://arxiv.org/pdf/<seg>…`, where the
   * segment is followed by the end, `/`, `?` or `#`, give the segment minus one `.pdf`.
   */
  lemma ArxivUrlGivesSegment(dir: string, seg: string, rest: string)
    requires dir == "abs" || dir == "pdf"
    requires seg != [] && AllOf(seg, IsSegmentChar)
    requires rest == [] || !IsSegmentChar(rest[0])
    ensures ExtractPaperId("https://arxiv.org/" + dir + "/" + seg + rest) == Some(StripPdf(seg))
  {
    var url := "https://arxiv.org/" + dir + "/" + seg + rest;
    ArxivUrlShape(dir, seg + rest, url);
    assert url[22..] == seg + rest;
    LeadingCountAll(seg, rest, IsSegmentChar);
    assert url[22..][0] == seg[0];
    assert FirstPatternAt(url, 8);
    assert Segment(url, 8) == seg;
    ExtractFromArxivPath(url, 8);
  }

  /** The fixed prefix: the regex matches at 8 and nowhere before. */
  lemma ArxivUrlShape(dir: string, tail: string, url: string)
    requires dir == "abs" || dir == "pdf"
    requires url == "https://arxiv.org/" + dir + "/" + tail
    ensures AbsOrPdfAt(url, 8) && |url| == 22 + |tail| && url[22..] == tail
    ensures forall j: nat | j < 8 :: !FirstPatternAt(url, j)
  {
    assert url[..8] == "https://";
    assert url[8..18] == "arxiv.org/";
    assert url[18..22] == dir + "/";
    assert CiAt(url, 8, "arxiv.org/");
    assert CiAt(url, 18, dir + "/");
    forall j: nat | j < 8
      ensures !FirstPatternAt(url, j)
    {
      assert url[j] == url[..8][j];
      NotCiAtFirst(url, j, "arxiv.org/");
    }
  }

  /** `extractPaperId("https://arxiv.org/pdf/2508.14825v2.pdf")` */
  lemma PdfUrlExample()
    ensures ExtractPaperId("https://arxiv.org/pdf/2508.14825v2.pdf") == Some("2508.14825v2")
  {
    PdfUrlSplits();
    ArxivUrlGivesSegment("pdf", "2508.14825v2.pdf", "");
    PdfStripped();
  }

  lemma PdfUrlSplits()
    ensures "https://arxiv.org/pdf/2508.14825v2.pdf" == "https://arxiv.org/" + "pdf" + "/" + "2508.14825v2.pdf" + ""
    ensures AllOf("2508.14825v2.pdf", IsSegmentChar)
  {
  }

  lemma PdfStripped()
    ensures StripPdf("2508.14825v2.pdf") == "2508.14825v2"
  {
    assert EndsWithPdf("2508.14825v2.pdf");
  }

  /** An old-style id keeps only the part before its slash: `hep-th/9901001` gives `"hep-th"`. */
  lemma OldStyleIdExample()
    ensures ExtractPaperId("https://arxiv.org/abs/hep-th/9901001") == Some("hep-th")
  {
    OldStyleSplits();
    ArxivUrlGivesSegment("abs", "hep-th", "/9901001");
    OldStyleNotStripped();
  }

  lemma OldStyleNotStripped()
    ensures StripPdf("hep-th") == "hep-th"
  {
    NotCiAtFirst("hep-th", 2, ".pdf");
  }

  lemma OldStyleSplits()
    ensures "https://arxiv.org/abs/hep-th/9901001" == "https://arxiv.org/" + "abs" + "/" + "hep-th" + "/9901001"
    ensures AllOf("hep-th", IsSegmentChar) && !IsSegmentChar("/9901001"[0])
  {
  }

  /** A bare new-style id is found by the third regex. */
  lemma BareIdExample()
    ensures ExtractPaperId("2508.14825v2") == Some("2508.14825v2")
  {
    BareIdMatches();
    ExtractFallsBackToId("2508.14825v2", 0);
  }

  lemma BareIdMatches()
    ensures ThirdPatternAt("2508.14825v2", 0)
    ensures NewStyleId("2508.14825v2", 0) == "2508.14825v2"
  {
    var url := "2508.14825v2";
    assert url[..4] == "2508" && url[5..9] == "1482";
    assert url[10] == 'v' && IsDigit(url[11]);
    assert url[11..] == "2";
  }
}

=== FILE: references.dfy ===
/**
 * Normalising the reference list returned by the Semantic Scholar Graph API
 * (`fetchReferencesFromSemanticScholar`, `pickBestUrl`) and the record saved
 * as the references JSON file.
 *
 * The API's JSON is abstracted into records.  A missing key, `null` and the
 * empty string are all falsy in JavaScript and are all written `""` here.
 */
module References {
  import opened Wrappers
  import opened JsText
  import opened ArxivTail

  /** `externalIds` of a cited paper; `""` when the object or the key is absent. */
  datatype ExternalIds = ExternalIds(doi: string, arxiv: string)

  /**
   * A `citedPaper` as the API returns it.  `openAccessPdf` holds
   * `openAccessPdf.url`.  A year is `None` when absent or `null`.
   */
  datatype CitedPaper = CitedPaper(
    title: string,
    year: Option<int>,
    url: string,
    openAccessPdf: string,
    externalIds: ExternalIds)

  /** One element of the response's `data` array. */
  datatype ApiItem = ApiItem(citedPaper: Option<CitedPaper>)

  /** The entry the extension keeps per reference; `None` is JavaScript `null`. */
  datatype RefEntry = RefEntry(
    title: Option<string>,
    year: Option<int>,
    url: string,
    doi: Option<string>,
    arxiv: Option<string>)

  /** `s || null` for a string. */
  function OrNull(s: string): (r: Option<string>)
    ensures r.None? <==> s == ""
    ensures r.Some? ==> r.value == s
  {
    if s == "" then None else Some(s)
  }

  /** `y || null` for a year: a year of 0 is falsy and becomes `null` too. */
  function YearOrNull(y: Option<int>): (r: Option<int>)
    ensures r.None? <==> (y.None? || y.value == 0)
    ensures r.Some? ==> r == y
  {
    match y
    case Some(v) => if v == 0 then None else y
    case None => None
  }

  /** No field of `e` holds a falsy value: every falsy value was turned into `null`. */
  predicate Normalised(e: RefEntry) {
    e.title != Some("") && e.year != Some(0) && e.doi != Some("") && e.arxiv != Some("")
  }

  // ---------------------------------------------------------------------------
  // pickBestUrl

  /** `pickBestUrl`: the open-access PDF, then the DOI URL, then the API URL, then the arXiv abs page. */
  function PickBestUrl(p: CitedPaper): (r: string)
    ensures r == "" <==>
      p.openAccessPdf == "" && p.externalIds.doi == "" && p.url == "" && p.externalIds.arxiv == ""
  {
    if p.openAccessPdf != "" then p.openAccessPdf
    else if p.externalIds.doi != "" then "https://doi.org/" + p.externalIds.doi
    else if p.url != "" then p.url
    else if p.externalIds.arxiv != "" then "https://arxiv.org/abs/" + p.externalIds.arxiv
    else ""
  }

  /** The URL each source would give, in order of preference; `""` for a source that is absent. */
  function Candidates(p: CitedPaper): seq<string> {
    [ p.openAccessPdf,
      if p.externalIds.doi == "" then "" else "https://doi.org/" + p.externalIds.doi,
      p.url,
      if p.externalIds.arxiv == "" then "" else "https://arxiv.org/abs/" + p.externalIds.arxiv ]
  }

  /** The first non-empty string of `cs`, or `""`. */
  function FirstNonEmpty(cs: seq<string>): (r: string)
    ensures r == "" <==> forall i | 0 <= i < |cs| :: cs[i] == ""
    ensures r != "" ==> exists i | 0 <= i < |cs| :: cs[i] == r && forall j | 0 <= j < i :: cs[j] == ""
  {
    if cs == [] then ""
    else if cs[0] != "" then cs[0]
    else
      var r := FirstNonEmpty(cs[1..]);
      assert r != "" ==> exists i | 1 <= i < |cs| :: cs[i] == r && forall j | 0 <= j < i :: cs[j] == "" by {
        if r != "" {
          var i :| 0 <= i < |cs[1..]| && cs[1..][i] == r && forall j | 0 <= j < i :: cs[1..][j] == "";
          assert cs[i + 1] == r;
          assert forall j | 1 <= j < i + 1 :: cs[j] == cs[1..][j - 1];
        }
      }
      r
  }

  /** `pickBestUrl` returns the most preferred source that is present. */
  lemma PickBestUrlIsFirstCandidate(p: CitedPaper)
    ensures PickBestUrl(p) == FirstNonEmpty(Candidates(p))
  {
    var cs := Candidates(p);
    assert cs == [cs[0]] + ([cs[1]] + ([cs[2]] + ([cs[3]] + [])));
    FirstNonEmptyCons(cs[3], []);
    FirstNonEmptyCons(cs[2], [cs[3]]);
    FirstNonEmptyCons(cs[1], [cs[2], cs[3]]);
    FirstNonEmptyCons(cs[0], [cs[1], cs[2], cs[3]]);
  }

  lemma FirstNonEmptyCons(c: string, cs: seq<string>)
    ensures FirstNonEmpty([c] + cs) == if c != "" then c else FirstNonEmpty(cs)
  {
    assert ([c] + cs)[1..] == cs;
  }

  /** Priority: a present source wins over every source after it. */
  lemma PickBestUrlPriority(p: CitedPaper, i: nat)
    requires i < 4 && Candidates(p)[i] != ""
    requires forall j | 0 <= j < i :: Candidates(p)[j] == ""
    ensures PickBestUrl(p) == Candidates(p)[i]
  {
    PickBestUrlIsFirstCandidate(p);
    var cs := Candidates(p);
    var r := FirstNonEmpty(cs);
    var k :| 0 <= k < |cs| && cs[k] == r && forall j | 0 <= j < k :: cs[j] == "";
    assert k == i;
  }

  // ---------------------------------------------------------------------------
  // The reference mapping

  /** One kept reference: falsy values become `null`, the URL is picked. */
  function ToEntry(p: CitedPaper): (e: RefEntry)
    ensures Normalised(e)
    ensures e.title.Some? ==> e.title.value == p.title
    ensures e.doi.Some? ==> e.doi.value == p.externalIds.doi
    ensures e.arxiv.Some? ==> e.arxiv.value == p.externalIds.arxiv
    ensures e.year.Some? ==> e.year == p.year
    ensures e.title == OrNull(p.title) && e.year == YearOrNull(p.year)
    ensures e.doi == OrNull(p.externalIds.doi) && e.arxiv == OrNull(p.externalIds.arxiv)
    ensures e.url == PickBestUrl(p)
  {
    RefEntry(
      OrNull(p.title),
      YearOrNull(p.year),
      PickBestUrl(p),
      OrNull(p.externalIds.doi),
      OrNull(p.externalIds.arxiv))
  }

  /** How many items carry a `citedPaper`. */
  function PresentCount(items: seq<ApiItem>): nat {
    if items == [] then 0
    else (if items[0].citedPaper.Some? then 1 else 0) + PresentCount(items[1..])
  }

  /** `.map(it => it?.citedPaper).filter(Boolean).map(p => ({ … }))` */
  function MapReferences(items: seq<ApiItem>): (r: seq<RefEntry>)
    ensures |r| == PresentCount(items) <= |items|
    ensures forall i | 0 <= i < |r| :: Normalised(r[i])
  {
    if items == [] then []
    else
      var head := match items[0].citedPaper
        case Some(p) => [ToEntry(p)]
        case None => [];
      head + MapReferences(items[1..])
  }

  /** Mapping distributes over concatenation, so the order of kept items is kept. */
  lemma {:induction false} MapReferencesAppend(a: seq<ApiItem>, b: seq<ApiItem>)
    ensures MapReferences(a + b) == MapReferences(a) + MapReferences(b)
    decreases |a|
  {
    if a == [] {
      assert a + b == b;
    } else {
      assert (a + b)[0] == a[0];
      assert (a + b)[1..] == a[1..] + b;
      MapReferencesAppend(a[1..], b);
    }
  }

  /** An item without a `citedPaper` contributes nothing. */
  lemma MapReferencesDropsAbsent(a: seq<ApiItem>, b: seq<ApiItem>)
    ensures MapReferences(a + [ApiItem(None)] + b) == MapReferences(a + b)
  {
    MapReferencesAppend(a + [ApiItem(None)], b);
    MapReferencesAppend(a, [ApiItem(None)]);
    MapReferencesAppend(a, b);
  }

  /** An item with a `citedPaper` contributes exactly its entry, in place. */
  lemma MapReferencesKeepsPresent(a: seq<ApiItem>, p: CitedPaper, b: seq<ApiItem>)
    ensures MapReferences(a + [ApiItem(Some(p))] + b)
         == MapReferences(a) + [ToEntry(p)] + MapReferences(b)
  {
    MapReferencesAppend(a + [ApiItem(Some(p))], b);
    MapReferencesAppend(a, [ApiItem(Some(p))]);
  }

  /** When every item carries a `citedPaper`, the i-th entry comes from the i-th item. */
  lemma {:induction false} MapReferencesAllPresent(items: seq<ApiItem>)
    requires forall i | 0 <= i < |items| :: items[i].citedPaper.Some?
    ensures |MapReferences(items)| == |items|
    ensures forall i | 0 <= i < |items| :: MapReferences(items)[i] == ToEntry(items[i].citedPaper.value)
    decreases |items|
  {
    if items != [] {
      MapReferencesAllPresent(items[1..]);
      var r := MapReferences(items);
      assert r == [ToEntry(items[0].citedPaper.value)] + MapReferences(items[1..]);
      forall i | 0 <= i < |items|
        ensures r[i] == ToEntry(items[i].citedPaper.value)
      {
        if i > 0 {
          assert r[i] == MapReferences(items[1..])[i - 1];
          assert items[1..][i - 1] == items[i];
        }
      }
    }
  }

  // ---------------------------------------------------------------------------
  // The version strip: `.replace(/v\d+$/i, '')`

  /** `s` ends with `v` or `V` followed by one or more digits. */
  predicate HasVersionSuffix(s: string) {
    exists k | 0 <= k < |s| - 1 :: (s[k] == 'v' || s[k] == 'V') && AllOf(s[k + 1..], IsDigit)
  }

  /** Remove a trailing `v<digits>` (either case of `v`), once. */
  function StripVersion(s: string): (r: string)
    ensures |r| <= |s| && r == s[..|r|]
    ensures r == s || |r| + 2 <= |s|
  {
    var n := TrailingCount(s, IsDigit);
    if 0 < n < |s| && (s[|s| - n - 1] == 'v' || s[|s| - n - 1] == 'V') then s[..|s| - n - 1] else s
  }

  /** A string without a version suffix comes back unchanged. */
  lemma StripVersionKeeps(s: string)
    requires !HasVersionSuffix(s)
    ensures StripVersion(s) == s
  {
  }

  /** `base + "v" + digits` loses exactly the version. */
  lemma StripVersionRemoves(base: string, v: char, digits: string)
    requires v == 'v' || v == 'V'
    requires digits != [] && AllOf(digits, IsDigit)
    ensures StripVersion(base + [v] + digits) == base
  {
    var s := base + [v] + digits;
    TrailingAllDigits(base + [v], digits);
    assert s[..|s| - |digits| - 1] == base;
  }

  lemma {:induction false} TrailingAllDigits(a: string, d: string)
    requires a != [] && !IsDigit(a[|a| - 1]) && AllOf(d, IsDigit)
    ensures TrailingCount(a + d, IsDigit) == |d|
    decreases |d|
  {
    if d == [] {
      assert a + d == a;
    } else {
      var s := a + d;
      assert s[..|s| - 1] == a + d[..|d| - 1];
      TrailingAllDigits(a, d[..|d| - 1]);
    }
  }

  /** `"2508.14825v2"` becomes `"2508.14825"`. */
  lemma StripVersionExample()
    ensures StripVersion("2508.14825v2") == "2508.14825"
  {
    assert "2508.14825v2" == "2508.14825" + ['v'] + "2";
    StripVersionRemoves("2508.14825", 'v', "2");
  }

  // ---------------------------------------------------------------------------
  // The JSON payload

  /** `.replace(/\s*-\s*arXiv.*$/i, '')`: drop everything from the leftmost match on. */
  function StripArxivTail(s: string): (r: string)
    ensures |r| <= |s| && r == s[..|r|]
    ensures r == s <==> forall i: nat | i <= |s| :: !ArxivTailAt(s, i)
    ensures r != s ==> ArxivTailAt(s, |r|) && forall i: nat | i < |r| :: !ArxivTailAt(s, i)
  {
    var at := (i: nat) => ArxivTailAt(s, i);
    assert forall i: nat :: at(i) == ArxivTailAt(s, i);
    match FindFirst(at, 0, |s|)
    case Some(i) => s[..i]
    case None => s
  }

  /** The `title` of the references JSON: the raw title without its `- arXiv…` tail, trimmed. */
  function JsonTitle(raw: string): (t: string)
    ensures Trimmed(t) && |t| <= |raw|
  {
    Trim(StripArxivTail(raw))
  }

  /** The object passed to `JSON.stringify`. */
  datatype Payload = Payload(arxivId: string, title: string, count: nat, references: seq<RefEntry>)

  function JsonPayload(paperId: string, titleRaw: string, refs: seq<RefEntry>): (r: Payload)
    ensures r.count == |r.references| && r.references == refs
    ensures r.arxivId == paperId && Trimmed(r.title)
    ensures r.title == JsonTitle(titleRaw)
  {
    Payload(paperId, JsonTitle(titleRaw), |refs|, refs)
  }

  /** A tail match inside `s[lo..hi]` is one in `s` when `s[hi..]` has no line terminator. */
  lemma ArxivTailInSlice(s: string, lo: nat, hi: nat, j: nat)
    requires lo <= hi <= |s| && NoneOf(s[hi..], IsLineTerminator)
    requires ArxivTailAt(s[lo..hi], j)
    ensures ArxivTailAt(s, lo + j) && lo + j < hi
  {
    var t := s[lo..hi];
    assert t[j..] + s[hi..] == s[lo + j..];
    ArxivTailExtends(t[j..], s[hi..]);
  }

  /**
   * Without line terminators in the raw title, the JSON title has no `- arXiv…`
   * tail left anywhere.
   */
  lemma JsonTitleHasNoArxivTail(raw: string)
    requires NoneOf(raw, IsLineTerminator)
    ensures forall j: nat | j <= |JsonTitle(raw)| :: !ArxivTailAt(JsonTitle(raw), j)
  {
    var s := StripArxivTail(raw);
    var k := |s|;
    assert forall i: nat | i < k :: !ArxivTailAt(raw, i);
    TrimIsSlice(s);
    var a, b :| 0 <= a <= b <= |s| && Trim(s) == s[a..b];
    SliceOfPrefix(raw, k, a, b);
    var t := JsonTitle(raw);
    assert t == raw[a..b];
    NoTailInSlice(raw, a, b, k);
    forall j: nat | j <= |t|
      ensures !ArxivTailAt(t, j)
    {
      assert !ArxivTailAt(raw[a..b], j);
    }
  }

  /** Below the leftmost match, no slice of `raw` holds a tail match either. */
  lemma NoTailInSlice(raw: string, lo: nat, hi: nat, k: nat)
    requires lo <= hi <= k <= |raw| && NoneOf(raw, IsLineTerminator)
    requires forall i: nat | i < k :: !ArxivTailAt(raw, i)
    ensures forall j: nat | j <= hi - lo :: !ArxivTailAt(raw[lo..hi], j)
  {
    forall j: nat | j <= hi - lo
      ensures !ArxivTailAt(raw[lo..hi], j)
    {
      if ArxivTailAt(raw[lo..hi], j) {
        assert forall i | 0 <= i < |raw[hi..]| :: raw[hi..][i] == raw[hi + i];
        ArxivTailInSlice(raw, lo, hi, j);
      }
    }
  }

  lemma SliceOfPrefix(s: string, k: nat, a: nat, b: nat)
    requires a <= b <= k <= |s|
    ensures s[..k][a..b] == s[a..b]
  {
  }

  /** `"Some Title - arXiv"` is saved with the title `"Some Title"`. */
  lemma JsonTitleExample()
    ensures JsonTitle("Some Title - arXiv") == "Some Title"
  {
    assert "Some Title - arXiv" == "Some Title" + " - arXiv";
    assert Trimmed("Some Title");
    assert forall i | 0 <= i < |"Some Title"| :: "Some Title"[i] != '-';
    DashFree("Some Title");
    ExampleTail();
    JsonTitleDropsTail("Some Title", " - arXiv");
  }

  /**
   * A trimmed title none of whose dashes is followed by `arxiv`, followed by a
   * `- arXiv…` tail, is saved as the bare title.
   */
  lemma JsonTitleDropsTail(t: string, tail: string)
    requires Trimmed(t) && NoArxivDash(t) && IsArxivTail(tail)
    ensures JsonTitle(t + tail) == t
  {
    var s := t + tail;
    assert s[|t|..] == tail;
    ArxivTailDashOrEnd(tail);
    forall j: nat | j < |t|
      ensures !ArxivTailAt(s, j)
    {
      NoTailInsideTitle(t, tail, j);
    }
    StripArxivTailAt(s, |t|);
    assert s[..|t|] == t;
  }

  /** A hyphen inside the title is kept: `"Self-Attention - arXiv"` gives `"Self-Attention"`. */
  lemma HyphenatedJsonTitleExample()
    ensures JsonTitle("Self-Attention" + " - arXiv") == "Self-Attention"
  {
    var t := "Self-Attention";
    forall j | 0 <= j < |t| && t[j] == '-'
      ensures !StartsArxivWord(t[j + 1..])
    {
      assert j == 4;
      assert t[5..] == "Attention";
      assert LeadingCount("Attention", IsWhitespace) == 0;
      assert AsciiLower("Attention"[1]) != "arxiv"[1];
    }
    assert Trimmed(t);
    ExampleTail();
    JsonTitleDropsTail(t, " - arXiv");
  }

  /** The leftmost match position decides what `StripArxivTail` keeps. */
  lemma StripArxivTailAt(s: string, i: nat)
    requires ArxivTailAt(s, i) && forall j: nat | j < i :: !ArxivTailAt(s, j)
    ensures StripArxivTail(s) == s[..i]
  {
  }
}

=== FILE: wrappers.dfy ===
/** The JavaScript `null`-or-value idiom used throughout the model. */
module Wrappers {

  datatype Option<+T> = None | Some(value: T) {

    /** The value, or `default` when absent (JavaScript `x ?? default`). */
    function GetOr(default: T): T {
      match this
      case Some(v) => v
      case None => default
    }
  }
}
